=== FILE: README.md ===
# converter-js job pipeline, modelled in Dafny

This project models the core of `converter-js`, a queue worker. It takes a
"new media" job, runs three stages on it in a fixed order (download, convert,
deploy), and reports the job back to the queue. Every external call is an
oracle that the model receives as a parameter: the stage functions, object
storage, the directory walker, the prober and the transcoder.

Modules:

- `Js` (`js.dfy`): the JavaScript values the worker inspects, truthiness,
  `typeof`, property reads, `new Error`, and `Option`/`Result`.
- `Paths` (`paths.dfy`): the parts of Node's POSIX `path` module the stages use.
  These are `isAbsolute`, `join`, `basename` and `extname`. The module also
  holds the `/\.\w+$/` to `.mkv` rewrite that names converted files, and the
  resolution of a configured directory against the repository root.
- `Pipeline` (`main.dfy`): the job processor of `lib/main.js` and its shutdown
  handler.
  - A `Worker` class holds the process-wide `activeJobs` list and the
    `isProcessing` flag.
  - `Worker.Process` runs one job. It is proved equal to the specification
    function `ProcessSpec`, and the lemmas about `ProcessSpec` state the
    ordering, hand-off and fail-fast rules.
- `Convert` (`convert.dfy`): the convert stage.
  - Option-object assembly.
  - The dirty marker, held in a `FileSystem` class whose maps the stage updates.
  - The one-file-at-a-time conversion loop. The method `ConvertFiles` is proved
    equal to the specification function `RunFiles`.
- `MediaProcess` (`process.dfy`): the media post-processor.
  - The walk filter: the extension test and the quirky `'Season'` test.
  - Collection of the walk's files.
  - Selection of audio and video streams.
  - Ordered probing.
- `Download` (`download.dfy`): the download stage.
  - The layout of the download directory.
  - Sequential fail-fast fetching.
  - The media list rebuilt from the directory listing.
  - A lemma that the convert stage reads back exactly what this stage produces.

Edge behaviour of the core:
- A job without a card object is completed, not rejected (lib/main.js:70-73).
- Shutdown exits 0 with no active job. Otherwise it marks every received job failed and exits 1 (lib/main.js:246-258).
- Progress is reported per file, as 0 at the start and 100 on completion (lib/convert.js:110, 144).
- The only on-disk marker is the convert stage's dirty file (lib/convert.js:60, 72-75). No per-file progress is persisted.

## Model

| member | source | states |
|---|---|---|
| Paths.BasenameShape | lib/download.js:47 | `path.basename` never contains a separator. For a path that does not end in one, it is the suffix after the last separator. |
| Paths.BasenameOfJoin | lib/convert.js:83-84 | The basename of `join(dir, name)` is `name` for a non-empty name without a separator. |
| Paths.ExtnameOfJoin | lib/process.js:39 | `path.extname` of `dir/stem.ext` is `.ext`, for any directory and any non-empty stem. |
| Paths.ExtnameOfDotFile | lib/process.js:39 | A dot file named like an extension (`.mkv`) has an empty `extname`. |
| Paths.ExtMatchUnique | lib/convert.js:83 | `/\.\w+$/` can match a string at one position at most. |
| Paths.ReplaceExtMatchesRegex | lib/convert.js:83 | With a match, the replacement rewrites exactly the matched extension to `.mkv`. Without one, the path is unchanged. |
| Paths.OutputNameShape | lib/convert.js:83 | An output name has no separator. It ends in `.mkv` when the input has a word-character extension. Otherwise it is the input's basename. |
| Paths.OutputNameIdempotent | lib/convert.js:83 | Naming an output name again gives the same name. This holds for every path that does not end in a separator. |
| Paths.OutputNameUnderDir | lib/convert.js:83 | A file joined under any directory gets the same output name as the bare file name. |
| Paths.Resolve | lib/convert.js:21-29 | An absolute configured directory is used unchanged. A relative one is placed under a non-empty repository root. The result is absolute whenever the root or the configured directory is. |
| Pipeline.FindMovieLabel | lib/main.js:74-76 | `_.find` gives the index of the first label named 'Movie', with none before it, or reports that there is none. |
| Pipeline.MediaTypeOf | lib/main.js:63-77 | The type is movie if and only if some element of `card.labels` has `name === 'Movie'`; otherwise it is tv. |
| Pipeline.InitStages | lib/main.js:124-160 | Loading succeeds if and only if every stage module gives a function. The functions are then in stage order. Otherwise the error is that of the first failing module, and every earlier module was a function. |
| Pipeline.RunStages | lib/main.js:165-181 | The loop invokes at most the remaining stages. It invokes all of them when none throws, and at least one when one throws. |
| Pipeline.RunStagesOrder | lib/main.js:165-181 | Stages are invoked in the fixed order, each at most once, each with the static job data. |
| Pipeline.RunStagesHandOff | lib/main.js:165-181 | The first stage invoked gets the incoming `data`. Every later stage gets what the stage before it returned. |
| Pipeline.RunStagesFailFast | lib/main.js:164-182 | Every stage before the last one invoked returned. If none threw, all stages ran. If one threw, it is the last one invoked, and the loop reports its error. |
| Pipeline.Done | lib/main.js:110-119 | The job fails if and only if the given error is truthy, and then fails with that error. |
| Pipeline.OnStageFailure | lib/main.js:182-205 | A caught `undefined` or `null` makes the `err.message` read in the log line throw a TypeError: the job is not reported and no metrics are published. Otherwise the job fails if and only if the payload's `data` field is truthy, and then with that value. The metrics carry the job id and host, with the message and code of `data` when it is an Error and the defaults otherwise. |
| Pipeline.OnStageFailureIntended | lib/main.js:182-205 | The same catch block reporting the caught error: a nullish one still crashes the log line; otherwise the job fails if and only if the error is truthy, and the metrics take its message and code when it is an Error. |
| Pipeline.ErrorMetricsFor | lib/main.js:186-201 | The metrics carry the job id and host. Message and code come from the examined value when it is an Error, and are 'Internal Server Error'/'ERRNOCODE' otherwise. |
| Pipeline.ProcessSpec | lib/main.js:50-213 | At most the three stages are invoked. A stage is invoked only for a valid card with every module loaded. Metrics, or a crash of the catch block with a TypeError, come only for a valid card after some stage ran; a crash publishes nothing. Without metrics or a crash, a run that invoked a stage invoked all three and completed. |
| Pipeline.InvalidCardSkipsStages | lib/main.js:70-73 | A job whose card is missing or not an object completes without error and invokes no stage. |
| Pipeline.InitFailureRunsNoStage | lib/main.js:149-160 | If a module is not a function, the job fails with the first such module's error before any stage runs, and no metrics are published. |
| Pipeline.StagesRunInOrder | lib/main.js:165-181 | For a loaded job, stages run in the fixed order with the static data and the media type. The first gets `{}`, and each later one gets the previous stage's return value. |
| Pipeline.StageFailureStopsRun | lib/main.js:164-208 | Every stage before the last one invoked returned. There are no metrics and no crash if and only if all three stages ran and returned, and then the job completes. Otherwise the last stage invoked threw and no later stage ran. A nullish throw leaves the job unreported with nothing published; any other throw reports the job with the payload's `data` field and publishes the metrics derived from it. |
| Pipeline.ThrownStageErrorIsLost | lib/main.js:196-204 | A concrete job whose first stage throws is still reported as completed, with the default metrics. |
| Pipeline.UndefinedThrowIsUnreported | lib/main.js:182-184 | A concrete job whose first stage rejects with `undefined` is neither completed nor failed, and no metrics are published. |
| Pipeline.IntendedStageFailure | lib/main.js:196-204 | Reporting the caught Error instead fails the job with it and publishes its message and code. |
| Pipeline.Worker.constructor | lib/main.js:33-42 | The worker starts with no received jobs and not processing. |
| Pipeline.Worker.Process | lib/main.js:50-213 | Every job, including an invalid one, is appended to `activeJobs` and nothing is removed. The report is `ProcessSpec`'s. `isProcessing` is set when a valid job starts and cleared only when a stage throws, including when the catch block then crashes. |
| Pipeline.Worker.Shutdown | lib/main.js:246-258 | With no received job it exits 0 and marks nothing. Otherwise it marks the received jobs failed with a 'SIGINT' Error, in order, and exits 1. The first marking that rejects ends the handler with that error. |
| Convert.RemoveKeys | lib/convert.js:49-55 | The clean-up loop gives the object without its removable keys, in order. |
| Convert.NothingRemovable | lib/convert.js:49-55 | The loops delete nothing when no key is empty, which holds for both option objects. |
| Convert.MergePropertyPlacement | lib/convert.js:97-98 | Merging one property keeps every existing key in place. A new key is appended. An existing key is overwritten in place. The key is present afterwards, with the source value unless that value is undefined. Every other property keeps its value, and an undefined source value changes nothing. |
| Convert.MergeKeepsKeys | lib/convert.js:97-98 | `_.merge` keeps every destination key in place and leaves every source key present. |
| Convert.MakeConverter | lib/convert.js:18-55 | The factory resolves the transcoding path against the repository root and keeps both option objects unchanged. |
| Convert.MergeDisjoint | lib/convert.js:97-98 | `_.merge` with new, distinct keys appends the source's properties in order. |
| Convert.OptionsAssembled | lib/convert.js:91-98 | The option object is input, output, 'no-usage-stats', then every video key, then every audio key, each with its configured value. |
| Convert.RunFilesOutputs | lib/convert.js:80-88 | Files are started in input order, each with its readable path, and all of them are started when none fails. Output `j` is `baseDir/<output name of input j>`, in the same order. |
| Convert.RunFilesConverted | lib/convert.js:80-88 | Every file before the last one started was readable and completed. When nothing failed, every file completed. |
| Convert.RunFilesEvents | lib/convert.js:77-146 | The progress events are `(0, n, i)` then `(100, n, i)` for each 1-based index `i`, in order. Only the last file started may lack its completion. |
| Convert.RunFilesFailure | lib/convert.js:100-170 | The loop fails on an unreadable path (TypeError) or on a failed run (that run's error, with its start reported and not its completion). It succeeds with two events per file otherwise. |
| Convert.ConvertFiles | lib/convert.js:77-170 | The per-file loop computes exactly the outputs, events and failure of `RunFiles`. |
| Convert.MarkDirty | lib/convert.js:73-75 | The marker is written with "true" only when nothing exists at its path. Otherwise the files are unchanged. |
| Convert.MarkDirtyIdempotent | lib/convert.js:73-75 | Marking twice leaves the files as marking once did. |
| Convert.MediaItems | lib/convert.js:67-80 | Reading `job.data.media` fails only with a TypeError, and fails exactly when `data` is undefined or null or `media` is truthy and not an array. It gives the array's elements, or nothing for a falsy `media`. |
| Convert.RunJob | lib/convert.js:57-178 | Covers the job directory, the dirty marker, and the TypeError when `data` or `media` cannot be read, after which only 'processing' was reported. On success it resolves `{files}` after 'processing', the file events and 'complete'. On failure it rejects with the loop's failure and does not report 'complete'. |
| MediaProcess.IndexOfFrom | lib/process.js:32 | `indexOf` returns the first index at or after the start where the substring occurs, or -1 exactly when it occurs nowhere from there on. |
| MediaProcess.KeepDirectory | lib/process.js:30-36 | A directory is pruned if and only if its path begins with "Season". |
| MediaProcess.AbsoluteDirectoryKept | lib/process.js:30-36 | No directory with an absolute path is ever pruned. |
| MediaProcess.MediaFileByExtension | lib/process.js:18-41 | A file `stem.ext` is kept if and only if `.ext` is one of `.mp4`, `.mkv`, `.mov`, `.webm` as an exact string. A dot file is never kept. |
| MediaProcess.FindMediaFiles | lib/process.js:25-56 | Succeeds if and only if the walker emits no error. It then gives the paths of the non-directory items in emission order. Otherwise it gives the first error. |
| MediaProcess.FilePathsOrigin | lib/process.js:44-48 | Every collected path is a non-directory item of the walk. |
| MediaProcess.FoundFilesAreMedia | lib/process.js:28-48 | In a filtered walk of a directory, every collected file has a media extension. |
| MediaProcess.Wanted | lib/process.js:77-87 | A stream is wanted if and only if it is an object whose `codec_type` is the wanted kind and whose `codec_name` differs from the configured codec. |
| MediaProcess.SelectStreams | lib/process.js:77-87 | A selection is never longer than the probe's stream list. |
| MediaProcess.SelectStreamsMembers | lib/process.js:77-87 | A stream is selected if and only if it is in the list, has the wanted `codec_type`, and has a `codec_name` different from the configured codec. |
| MediaProcess.SelectStreamsConcat | lib/process.js:77-87 | Selection distributes over concatenation, so the original order is kept. |
| MediaProcess.AudioVideoDisjoint | lib/process.js:77-87 | No stream is selected both as audio and as video. |
| MediaProcess.ProbeFiles | lib/process.js:73-99 | Succeeds if and only if every probe succeeds. It then gives one `{path, audio, video}` per file in list order. Otherwise it gives an error that some probe produced. |
| MediaProcess.ProcessDirectory | lib/process.js:63-107 | A missing `data` or path is a TypeError. Otherwise the step succeeds if and only if the walk and every probe succeed, and resolves `{media}` over the found files. A failure is the walk's first error, or, after a clean walk, the error of a probe of a found file. |
| Download.DownloadPath | lib/download.js:35-40 | The directory is `download_path/job.id`, under the repository root when `download_path` is relative. |
| Download.DownloadPathLayout | lib/download.js:35-40 | The directory's last segment is the job id. |
| Download.Destination | lib/download.js:47 | Each object is saved directly inside the download directory, under its name's last segment: the part after the name's final '/', or the whole name when it has none. |
| Download.FetchObjects | lib/download.js:43-52 | Objects are fetched in listing order into `Destination`. Every fetch before the last returned. With no failure all were fetched; otherwise the last fetch's error is rethrown. |
| Download.MediaList | lib/download.js:56-62 | One `{path: downloadPath/entry}` per listing entry, in listing order. |
| Download.RunDownload | lib/download.js:20-69 | Succeeds if and only if the object listing, every fetch, and the directory listing succeed. 'downloaded' is reported only then. Every fetch before the last returned. A failure is the object listing's error, the last fetch's error, or, after every fetch returned, the directory listing's error. The media list comes from the directory listing alone. |
| Download.ConvertReadsDownloadResult | lib/download.js:56-68 | The convert stage reads back the download stage's media list and each entry's path. A plain file name's output path is derived from the name alone. |

## Left out

- Handbrake events and timers (lib/convert.js:100-165) are reduced to one oracle per file, `FileOutcome`. This leaves out:
  - the 20-second no-output window;
  - the 10-second progress interval and its `job.active()` calls;
  - the 5-second end catcher;
  - duplicate `next` calls after an 'error' followed by 'end';
  - the check that the output exists after 'complete', whose throw is unhandled in the source.
- Parallel work is sequential in the model:
  - Module loading (`async.forEach`, lib/main.js:124) is one step that reports the first failing module in stage order. In the source, the first to fail in time is reported.
  - Probing (`mapLimit(…, 5)`, lib/process.js:73) keeps its results in list order. `MediaProcess.ProbeFiles` reports the first failing file in list order, and its contract promises only "some probe's error", as the source does.
- `klaw`, ffprobe, Minio, kue, Redis, the file system and the host name are oracles or parameters:
  - The walk is the sequence of entries it emits, and `FilteredWalk` states what the filter guarantees about it. The traversal order itself is not modelled.
  - `fs.statSync` in the filter and the data handler is taken to agree with the walker's own directory flag.
- Tracing spans, logging, `EmitterTable`, the `emitter.emit('progress', 0)` after each stage in lib/main.js:180, and the `/health` endpoint (lib/main.js:216-230) are not modelled.
- `errorMetrics.stage` (lib/main.js:188) always refers to the placeholder object at lib/main.js:100, so the model's `ErrorMetrics` omits it.
- lib/deploy.js is not part of this model; it is only the abstract third stage. As shipped, it returns no function, so lib/main.js:149-152 would fail every valid job at load time. `Pipeline.InitFailureRunsNoStage` covers that path.
- `path.join` is modelled without normalisation of `.`, `..` or repeated separators. `Paths.Resolve` takes the repository root as a parameter in place of `path.join(__dirname, '..')`.
- Job ids are taken to be strings. A non-string `job.id` makes `path.join` throw, and that is not modelled.
- Convert.MediaItems: a truthy `job.data.media` that is not an array is modelled as a TypeError. For an object, `async.eachLimit` would instead iterate its values; for a truthy number or boolean it would iterate nothing, and the stage would resolve `{files: []}` after 'complete'.
- Convert.RunFiles: an entry whose `path` is not a string ends the loop with a TypeError. In the source, a throw for a later file escapes the promise instead of rejecting it.
- MediaProcess.Wanted: a stream that is not an object reads as having no `codec_type`. In the source, a `null` stream would throw.
- MediaProcess.StreamsOf: a `stats.streams` that is not an array selects nothing. lodash would iterate a plain object's values.
- `_.merge` is modelled for property values that are not merged recursively, which holds for the settings the stage copies.
- A crash of the catch block (`Pipeline.JobOutcome.Crashed`) is where the model stops. The unhandled rejection it causes reaches the shutdown handler through index.js, which is not part of this model.
- The shutdown handler's `process.exit` is its result value. The queue's `Job.get` and `job.error` are one oracle per job.
- NaN, -0, fractional numbers and object identity (`===` on objects) are not represented in `Js.Value`. `Js.Value.Num` holds an integer. The only numbers the core handles are counts, indices and the fixed progress values 0 and 100.

## Findings

| source | as written | input that shows it | evidently intended | confidence | as-written member | corrected member |
|---|---|---|---|---|---|---|
| lib/main.js:196-204 | The catch block reports `done(data.data)` and derives the metrics from `data.data`. That `data` is the job payload (lib/main.js:51), not the caught error. | A job with a valid card and no `data` field, whose download stage throws `new Error('download failed')`. The job is reported completed, and the metrics say 'Internal Server Error'. | `done(err)`, with the metrics taken from `err`, so a failed stage fails the job. | not executed | Pipeline.ThrownStageErrorIsLost | Pipeline.IntendedStageFailure |

=== FILE: convert.dfy ===
/** The convert stage of lib/convert.js: the factory resolves the transcoding
    directory and builds the encoder option objects once; the stage function it
    returns marks the job's directory dirty and converts the files it was handed
    one at a time, in order, stopping at the first failure. Each file's
    transcoding run is an oracle that reports how the run ended. */
module Convert {
  import opened Js
  import opened Paths

  datatype VideoSettings = VideoSettings(codec: Value, profile: Value, preset: Value, tune: Value, quality: Value)
  datatype AudioSettings = AudioSettings(codec: Value, bitrate: Value, fallback: Value, mixdown: Value)

  /** The parts of `config.instance` the stage reads. */
  datatype Instance = Instance(transcodingPath: string, video: VideoSettings, audio: AudioSettings)

  /** A JavaScript object as its properties in insertion order. */
  type Options = seq<(string, Value)>

  /** No property of `o` has the key `key`. */
  predicate KeyAbsent(o: Options, key: string) {
    forall j :: 0 <= j < |o| ==> o[j].0 != key
  }

  lemma AppendAssoc<T>(a: seq<T>, b: seq<T>, c: seq<T>)
    ensures a + (b + c) == (a + b) + c
  {
  }

  function VideoObject(v: VideoSettings): Options {
    [("encoder", v.codec), ("encoder-profile", v.profile), ("encoder-preset", v.preset),
     ("encoder-tune", v.tune), ("quality", v.quality)]
  }

  function AudioObject(a: AudioSettings): Options {
    [("aencoder", a.codec), ("ab", a.bitrate), ("audio-fallback", a.fallback), ("arate", Str("auto")),
     ("mixdown", a.mixdown), ("all-subtitles", Bool(true)), ("all-audio", Bool(true))]
  }

  // ------------------------------------------------------------- key removal

  /** The removal test of the clean-up loops. It looks at the key, which is
      always a string, so only an empty key would be removed. */
  predicate RemovableKey(key: string) {
    key == ""
  }

  function WithoutRemovableKeys(o: Options): Options {
    if o == [] then []
    else (if RemovableKey(o[0].0) then [] else [o[0]]) + WithoutRemovableKeys(o[1..])
  }

  /** The clean-up loop: visit each key and delete it if it is removable. */
  method RemoveKeys(o: Options) returns (r: Options)
    ensures r == WithoutRemovableKeys(o)
  {
    r := [];
    var i := 0;
    while i < |o|
      invariant 0 <= i <= |o|
      invariant r + WithoutRemovableKeys(o[i..]) == WithoutRemovableKeys(o)
    {
      assert o[i..] == [o[i]] + o[i + 1..];
      if !RemovableKey(o[i].0) {
        AppendAssoc(r, [o[i]], WithoutRemovableKeys(o[i + 1..]));
        r := r + [o[i]];
      }
      i := i + 1;
    }
    assert o[i..] == [];
  }

  /** Removal changes nothing when no key is empty. */
  lemma {:induction false} NothingRemovable(o: Options)
    requires forall k :: 0 <= k < |o| ==> o[k].0 != ""
    ensures WithoutRemovableKeys(o) == o
  {
    if o != [] {
      NothingRemovable(o[1..]);
    }
  }

  // ---------------------------------------------------------------- merging

  /** Position of `key` among the properties of `o`, or -1. */
  function IndexOfKey(o: Options, key: string): (r: int)
    ensures -1 <= r < |o|
    ensures r >= 0 ==> o[r].0 == key
    ensures r < 0 ==> KeyAbsent(o, key)
  {
    if o == [] then -1
    else if o[0].0 == key then 0
    else var k := IndexOfKey(o[1..], key); if k < 0 then -1 else k + 1
  }

  /** `_.merge` of one source property: a new key is added at the end; an
      existing one is overwritten unless the source value is undefined. */
  function MergeProperty(dst: Options, p: (string, Value)): (r: Options) {
    var k := IndexOfKey(dst, p.0);
    if k < 0 then dst + [p]
    else if p.1 == Undefined then dst
    else dst[k := p]
  }

  /** `_.merge(dst, src)` for property values that are not themselves merged. */
  function Merge(dst: Options, src: Options): (r: Options)
    decreases |src|
  {
    if src == [] then dst else Merge(MergeProperty(dst, src[0]), src[1..])
  }

  /** Merging one property keeps every existing key in place, appends a new
      key at the end, overwrites an existing one in place, and leaves the key
      present, with the source value unless that value is undefined. */
  lemma MergePropertyPlacement(dst: Options, p: (string, Value))
    ensures var r := MergeProperty(dst, p);
      && |r| >= |dst| && (forall j :: 0 <= j < |dst| ==> r[j].0 == dst[j].0)
      && (KeyAbsent(dst, p.0) ==> r == dst + [p])
      && (!KeyAbsent(dst, p.0) ==> |r| == |dst|)
      && !KeyAbsent(r, p.0)
      && (p.1 != Undefined ==> p in r)
      && (forall j :: 0 <= j < |dst| && dst[j].0 != p.0 ==> r[j] == dst[j])
      && (p.1 == Undefined ==> forall j :: 0 <= j < |dst| ==> r[j] == dst[j])
  {
    if KeyAbsent(dst, p.0) {
      assert (dst + [p])[|dst|] == p;
    }
  }

  /** `_.merge` keeps every key of the destination in place and leaves every
      key of the source present. */
  lemma {:induction false} MergeKeepsKeys(dst: Options, src: Options)
    ensures var r := Merge(dst, src);
      && |r| >= |dst| && (forall j :: 0 <= j < |dst| ==> r[j].0 == dst[j].0)
      && forall k :: 0 <= k < |src| ==> !KeyAbsent(r, src[k].0)
    decreases |src|
  {
    if src != [] {
      var d' := MergeProperty(dst, src[0]);
      MergePropertyPlacement(dst, src[0]);
      MergeKeepsKeys(d', src[1..]);
      var r := Merge(dst, src);
      assert r == Merge(d', src[1..]);
      forall k | 0 <= k < |src| ensures !KeyAbsent(r, src[k].0) {
        if k == 0 {
          var j :| 0 <= j < |d'| && d'[j].0 == src[0].0;
          assert r[j].0 == src[0].0;
        } else {
          assert src[k] == src[1..][k - 1];
        }
      }
    }
  }

  /** Merging properties whose keys are new and distinct appends them in order. */
  lemma {:induction false} MergeDisjoint(dst: Options, src: Options)
    requires forall k :: 0 <= k < |src| ==> KeyAbsent(dst, src[k].0)
    requires forall j, k :: 0 <= j < k < |src| ==> src[j].0 != src[k].0
    ensures Merge(dst, src) == dst + src
    decreases |src|
  {
    if src != [] {
      var d' := dst + [src[0]];
      assert KeyAbsent(dst, src[0].0);
      assert MergeProperty(dst, src[0]) == d';
      var tail := src[1..];
      forall k | 0 <= k < |tail| ensures KeyAbsent(d', tail[k].0) {
        assert tail[k] == src[k + 1];
        assert KeyAbsent(dst, src[k + 1].0);
      }
      forall j, k | 0 <= j < k < |tail| ensures tail[j].0 != tail[k].0 {
        assert tail[j] == src[j + 1] && tail[k] == src[k + 1];
      }
      MergeDisjoint(d', tail);
      assert src == [src[0]] + tail;
      AppendAssoc(dst, [src[0]], tail);
    }
  }

  /** The option object handed to the transcoder for one file. */
  function ConvOptions(input: string, output: string, video: Options, audio: Options): Options {
    var base := [("input", Str(input)), ("output", Str(output)), ("no-usage-stats", Bool(true))];
    Merge(Merge(base, video), audio)
  }

  /** The option object holds the input, the output, 'no-usage-stats' and every
      video and audio setting, in that order, each with its configured value. */
  lemma OptionsAssembled(input: string, output: string, v: VideoSettings, a: AudioSettings)
    ensures ConvOptions(input, output, VideoObject(v), AudioObject(a)) ==
              [("input", Str(input)), ("output", Str(output)), ("no-usage-stats", Bool(true))]
              + VideoObject(v) + AudioObject(a)
  {
    var base := [("input", Str(input)), ("output", Str(output)), ("no-usage-stats", Bool(true))];
    MergeDisjoint(base, VideoObject(v));
    var bv := base + VideoObject(v);
    MergeDisjoint(bv, AudioObject(a));
  }

  // --------------------------------------------------------------- factory

  /** What the factory computes once and the stage function closes over. */
  datatype Converter = Converter(transcodingPath: string, video: Options, audio: Options)

  /** The factory: the transcoding directory (relative ones under the
      repository root) and the two option objects after their clean-up loops. */
  method MakeConverter(repoRoot: string, instance: Instance) returns (c: Converter)
    ensures c.transcodingPath == Resolve(repoRoot, instance.transcodingPath)
    ensures c.video == VideoObject(instance.video)
    ensures c.audio == AudioObject(instance.audio)
  {
    var video := VideoObject(instance.video);
    var audio := AudioObject(instance.audio);
    audio := RemoveKeys(audio);
    video := RemoveKeys(video);
    NothingRemovable(VideoObject(instance.video));
    NothingRemovable(AudioObject(instance.audio));
    c := Converter(Resolve(repoRoot, instance.transcodingPath), video, audio);
  }

  // -------------------------------------------------------------- file loop

  /** How one transcoding run ended: the 'complete' event, a transcoder
      'error' event, no output within the watch window, or the process ending
      without 'complete'. */
  datatype FileOutcome = Finished | TranscoderError(message: string) | NoOutput | EndedWithoutComplete

  /** The value the per-file callback is given for a failed run. */
  function FailureOf(o: FileOutcome): Value
    requires !o.Finished?
  {
    match o
    case TranscoderError(msg) => NewError(msg)
    case NoOutput => Str("No output.")
    case EndedWithoutComplete => NewError("Failed to convert. See log.")
  }

  datatype Event = Status(status: string) | Progress(percent: int, total: int, index: int)

  /** `file.path` of a media entry, when it is a string. */
  function ItemPath(item: Value): Option<string> {
    if item.Obj? && "path" in item.fields && item.fields["path"].Str? then Some(item.fields["path"].s)
    else None
  }

  /** The output path of a media file. */
  function OutputPath(baseDir: string, input: string): string {
    Join(baseDir, OutputName(input))
  }

  /** The output paths of the files started, in the order they were started. */
  function OutputPaths(baseDir: string, inputs: seq<string>): seq<string>
    decreases |inputs|
  {
    if inputs == [] then []
    else OutputPaths(baseDir, inputs[..|inputs| - 1]) + [OutputPath(baseDir, inputs[|inputs| - 1])]
  }

  lemma {:induction false} OutputPathsAt(baseDir: string, inputs: seq<string>)
    ensures |OutputPaths(baseDir, inputs)| == |inputs|
    ensures forall k :: 0 <= k < |inputs| ==> OutputPaths(baseDir, inputs)[k] == OutputPath(baseDir, inputs[k])
    decreases |inputs|
  {
    if inputs != [] {
      var init := inputs[..|inputs| - 1];
      OutputPathsAt(baseDir, init);
      forall k | 0 <= k < |init| ensures inputs[k] == init[k] { }
    }
  }

  /** The transcoder options of file `k` of `items`. */
  function OptionsOf(c: Converter, baseDir: string, items: seq<Value>, k: nat): Options
    requires k < |items| && ItemPath(items[k]).Some?
  {
    var input := ItemPath(items[k]).value;
    ConvOptions(input, OutputPath(baseDir, input), c.video, c.audio)
  }

  /** The inputs of the files whose conversion started, the events reported and
      the failure that ended the loop, if any. */
  datatype FileRun = FileRun(started: seq<string>, events: seq<Event>, failure: Option<Value>)

  /** The per-file loop from file `i` on: the counter is the 1-based index, the
      file is recorded (its output path pushed) before the run starts, progress
      0 is reported at the start and 100 on completion, and the first failure
      ends the loop. */
  function RunFiles(c: Converter, baseDir: string, items: seq<Value>, i: nat,
                    transcode: Options -> FileOutcome): (r: FileRun)
    requires i <= |items|
    decreases |items| - i
  {
    if i == |items| then FileRun([], [], None)
    else match ItemPath(items[i])
      case None => FileRun([], [], Some(TypeError))
      case Some(input) =>
        var start := Progress(0, |items|, i + 1);
        var outcome := transcode(OptionsOf(c, baseDir, items, i));
        if outcome.Finished? then
          var rest := RunFiles(c, baseDir, items, i + 1, transcode);
          FileRun([input] + rest.started, [start, Progress(100, |items|, i + 1)] + rest.events, rest.failure)
        else FileRun([input], [start], Some(FailureOf(outcome)))
  }

  /** Files are started in input order, each with its readable path; all of
      them are started when none fails, and the recorded outputs are
      `baseDir/<output name of the input>` for each of them, in that order. */
  lemma {:induction false} RunFilesOutputs(c: Converter, baseDir: string, items: seq<Value>, i: nat,
                                           transcode: Options -> FileOutcome)
    requires i <= |items|
    ensures var r := RunFiles(c, baseDir, items, i, transcode);
      && |r.started| <= |items| - i
      && (r.failure.None? ==> |r.started| == |items| - i)
      && (forall j :: i <= j < i + |r.started| ==> ItemPath(items[j]) == Some(r.started[j - i]))
      && |OutputPaths(baseDir, r.started)| == |r.started|
      && forall j :: i <= j < i + |r.started| ==>
           OutputPaths(baseDir, r.started)[j - i] == OutputPath(baseDir, ItemPath(items[j]).value)
    decreases |items| - i
  {
    RunFilesStarted(c, baseDir, items, i, transcode);
    var r := RunFiles(c, baseDir, items, i, transcode);
    OutputPathsAt(baseDir, r.started);
  }

  lemma {:induction false} RunFilesStarted(c: Converter, baseDir: string, items: seq<Value>, i: nat,
                                           transcode: Options -> FileOutcome)
    requires i <= |items|
    ensures var r := RunFiles(c, baseDir, items, i, transcode);
      && |r.started| <= |items| - i
      && (r.failure.None? ==> |r.started| == |items| - i)
      && forall j :: i <= j < i + |r.started| ==> ItemPath(items[j]) == Some(r.started[j - i])
    decreases |items| - i
  {
    if i < |items| && ItemPath(items[i]).Some? && transcode(OptionsOf(c, baseDir, items, i)).Finished? {
      var r := RunFiles(c, baseDir, items, i, transcode);
      var rest := RunFiles(c, baseDir, items, i + 1, transcode);
      RunFilesStarted(c, baseDir, items, i + 1, transcode);
      assert r.started == [ItemPath(items[i]).value] + rest.started;
      forall j | i < j < i + |r.started| ensures ItemPath(items[j]) == Some(r.started[j - i]) {
        assert r.started[j - i] == rest.started[j - (i + 1)];
      }
    }
  }

  /** The file at index `k` is readable and its run completed. */
  predicate Converted(c: Converter, baseDir: string, items: seq<Value>, k: nat, transcode: Options -> FileOutcome)
    requires k < |items|
  {
    ItemPath(items[k]).Some? && transcode(OptionsOf(c, baseDir, items, k)).Finished?
  }

  /** Files are converted one at a time in order: every file before the last
      one started was readable and completed, and when nothing failed every file
      completed. */
  lemma {:induction false} RunFilesConverted(c: Converter, baseDir: string, items: seq<Value>, i: nat,
                                             transcode: Options -> FileOutcome)
    requires i <= |items|
    ensures var r := RunFiles(c, baseDir, items, i, transcode);
      var n := |r.started|;
      && i + n <= |items|
      && (forall k :: i <= k < i + n - 1 ==> Converted(c, baseDir, items, k, transcode))
      && (r.failure.None? ==> forall k :: i <= k < |items| ==> Converted(c, baseDir, items, k, transcode))
    decreases |items| - i
  {
    if i < |items| && ItemPath(items[i]).Some? && transcode(OptionsOf(c, baseDir, items, i)).Finished? {
      RunFilesConverted(c, baseDir, items, i + 1, transcode);
      assert Converted(c, baseDir, items, i, transcode);
    }
  }

  /** The progress events are, in order, the start (0) and the completion
      (100) of each file with its 1-based index; only the last file started
      can lack its completion. */
  lemma {:induction false} RunFilesEvents(c: Converter, baseDir: string, items: seq<Value>, i: nat,
                                          transcode: Options -> FileOutcome)
    requires i <= |items|
    ensures var r := RunFiles(c, baseDir, items, i, transcode);
      && (|r.events| == 2 * |r.started| || |r.events| == 2 * |r.started| - 1)
      && forall j :: 0 <= j < |r.events| ==>
           r.events[j] == Progress(if j % 2 == 0 then 0 else 100, |items|, i + j / 2 + 1)
    decreases |items| - i
  {
    if i < |items| && ItemPath(items[i]).Some? && transcode(OptionsOf(c, baseDir, items, i)).Finished? {
      RunFilesEvents(c, baseDir, items, i + 1, transcode);
      var rest := RunFiles(c, baseDir, items, i + 1, transcode);
      var r := RunFiles(c, baseDir, items, i, transcode);
      assert r.events == [Progress(0, |items|, i + 1), Progress(100, |items|, i + 1)] + rest.events;
      forall j | 2 <= j < |r.events|
        ensures r.events[j] == Progress(if j % 2 == 0 then 0 else 100, |items|, i + j / 2 + 1)
      {
        assert r.events[j] == rest.events[j - 2];
        assert (j - 2) % 2 == j % 2 && (j - 2) / 2 == j / 2 - 1;
      }
    }
  }

  /** The loop fails exactly when a file's path cannot be read (a TypeError,
      after every earlier file completed) or a run fails (with that run's error,
      after its start was reported and not its completion); it succeeds with
      both events for every file otherwise. */
  lemma RunFilesFailure(c: Converter, baseDir: string, items: seq<Value>, i: nat,
                        transcode: Options -> FileOutcome)
    requires i <= |items|
    ensures var r := RunFiles(c, baseDir, items, i, transcode);
      var n := |r.started|;
      && (r.failure.None? ==> i + n == |items| && |r.events| == 2 * n)
      && (r.failure.Some? ==>
            || (&& i + n < |items| && ItemPath(items[i + n]).None? && r.failure.value == TypeError
                && |r.events| == 2 * n)
            || (&& n > 0 && i + n <= |items| && ItemPath(items[i + n - 1]).Some?
                && !transcode(OptionsOf(c, baseDir, items, i + n - 1)).Finished?
                && r.failure.value == FailureOf(transcode(OptionsOf(c, baseDir, items, i + n - 1)))
                && |r.events| == 2 * n - 1))
  {
    var r := RunFiles(c, baseDir, items, i, transcode);
    var k := RunFilesStop(c, baseDir, items, i, transcode);
    if r.failure.Some? && k < |items| && ItemPath(items[k]).Some? {
      assert k == i + |r.started| - 1;
    }
  }

  /** The index at which the loop from `i` stops: the first file that is not
      readable or whose run fails, or the end of the list. */
  lemma {:induction false} RunFilesStop(c: Converter, baseDir: string, items: seq<Value>, i: nat,
                                        transcode: Options -> FileOutcome)
    returns (k: nat)
    requires i <= |items|
    ensures i <= k <= |items|
    ensures var r := RunFiles(c, baseDir, items, i, transcode);
      && (k == |items| ==> r.failure.None? && |r.started| == k - i && |r.events| == 2 * (k - i))
      && (k < |items| && ItemPath(items[k]).None? ==>
            r.failure == Some(TypeError) && |r.started| == k - i && |r.events| == 2 * (k - i))
      && (k < |items| && ItemPath(items[k]).Some? ==>
            && !transcode(OptionsOf(c, baseDir, items, k)).Finished?
            && r.failure == Some(FailureOf(transcode(OptionsOf(c, baseDir, items, k))))
            && |r.started| == k - i + 1 && |r.events| == 2 * (k - i) + 1)
    decreases |items| - i
  {
    if i == |items| || ItemPath(items[i]).None? || !transcode(OptionsOf(c, baseDir, items, i)).Finished? {
      k := i;
    } else {
      k := RunFilesStop(c, baseDir, items, i + 1, transcode);
    }
  }

  lemma OutputPathsSnoc(baseDir: string, inputs: seq<string>, x: string)
    ensures OutputPaths(baseDir, inputs + [x]) == OutputPaths(baseDir, inputs) + [OutputPath(baseDir, x)]
  {
    assert (inputs + [x])[..|inputs|] == inputs;
  }

  /** The loop's invariant: what is recorded so far, followed by the loop from
      file `i` on, is the loop from the first file. */
  predicate RunSoFar(c: Converter, baseDir: string, items: seq<Value>, i: nat, transcode: Options -> FileOutcome,
                     started: seq<string>, events: seq<Event>)
    requires i <= |items|
  {
    var rest := RunFiles(c, baseDir, items, i, transcode);
    RunFiles(c, baseDir, items, 0, transcode) == FileRun(started + rest.started, events + rest.events, rest.failure)
  }

  /** A completed file moves from the rest of the loop to what is recorded. */
  lemma RunSoFarAdvance(c: Converter, baseDir: string, items: seq<Value>, i: nat, transcode: Options -> FileOutcome,
                        started: seq<string>, events: seq<Event>)
    requires i < |items| && ItemPath(items[i]).Some? && transcode(OptionsOf(c, baseDir, items, i)).Finished?
    requires RunSoFar(c, baseDir, items, i, transcode, started, events)
    ensures RunSoFar(c, baseDir, items, i + 1, transcode, started + [ItemPath(items[i]).value],
                     events + [Progress(0, |items|, i + 1), Progress(100, |items|, i + 1)])
  {
    var rest := RunFiles(c, baseDir, items, i + 1, transcode);
    var pair := [Progress(0, |items|, i + 1), Progress(100, |items|, i + 1)];
    assert RunFiles(c, baseDir, items, i, transcode) == FileRun([ItemPath(items[i]).value] + rest.started, pair + rest.events, rest.failure);
    AppendAssoc(started, [ItemPath(items[i]).value], rest.started);
    AppendAssoc(events, pair, rest.events);
  }

  /** An unreadable path ends the loop with what is recorded and a TypeError. */
  lemma RunSoFarUnreadable(c: Converter, baseDir: string, items: seq<Value>, i: nat, transcode: Options -> FileOutcome,
                           started: seq<string>, events: seq<Event>)
    requires i < |items| && ItemPath(items[i]).None?
    requires RunSoFar(c, baseDir, items, i, transcode, started, events)
    ensures RunFiles(c, baseDir, items, 0, transcode) == FileRun(started, events, Some(TypeError))
  {
    assert RunFiles(c, baseDir, items, i, transcode) == FileRun([], [], Some(TypeError));
    assert started + [] == started && events + [] == events;
  }

  /** A failed run ends the loop with its start recorded and its error. */
  lemma RunSoFarFailed(c: Converter, baseDir: string, items: seq<Value>, i: nat, transcode: Options -> FileOutcome,
                       started: seq<string>, events: seq<Event>)
    requires i < |items| && ItemPath(items[i]).Some? && !transcode(OptionsOf(c, baseDir, items, i)).Finished?
    requires RunSoFar(c, baseDir, items, i, transcode, started, events)
    ensures RunFiles(c, baseDir, items, 0, transcode) ==
              FileRun(started + [ItemPath(items[i]).value], events + [Progress(0, |items|, i + 1)],
                      Some(FailureOf(transcode(OptionsOf(c, baseDir, items, i)))))
  {
  }

  /** The per-file loop itself (`eachLimit(files, 1, ...)`): the counter, the
      list of outputs and the events, stopping at the first failure. */
  method ConvertFiles(c: Converter, baseDir: string, items: seq<Value>, transcode: Options -> FileOutcome)
    returns (newFiles: seq<string>, events: seq<Event>, failure: Option<Value>)
    ensures var run := RunFiles(c, baseDir, items, 0, transcode);
      newFiles == OutputPaths(baseDir, run.started) && events == run.events && failure == run.failure
  {
    newFiles, events, failure := [], [], None;
    ghost var started: seq<string> := [];
    var i := 0;
    while i < |items|
      invariant 0 <= i <= |items|
      invariant newFiles == OutputPaths(baseDir, started)
      invariant RunSoFar(c, baseDir, items, i, transcode, started, events)
    {
      var input := ItemPath(items[i]);
      if input.None? {
        RunSoFarUnreadable(c, baseDir, items, i, transcode, started, events);
        return newFiles, events, Some(TypeError);
      }
      var output := OutputPath(baseDir, input.value);
      OutputPathsSnoc(baseDir, started, input.value);
      newFiles := newFiles + [output];
      var outcome := transcode(OptionsOf(c, baseDir, items, i));
      if !outcome.Finished? {
        RunSoFarFailed(c, baseDir, items, i, transcode, started, events);
        started := started + [input.value];
        events := events + [Progress(0, |items|, i + 1)];
        return newFiles, events, Some(FailureOf(outcome));
      }
      RunSoFarAdvance(c, baseDir, items, i, transcode, started, events);
      started := started + [input.value];
      events := events + [Progress(0, |items|, i + 1), Progress(100, |items|, i + 1)];
      i := i + 1;
    }
    assert started + [] == started && events + [] == events;
  }

  // ------------------------------------------------------------ stage function

  /** The files of the job's directories, as far as the stage touches them. */
  class FileSystem {
    var files: map<string, string>
    var dirs: set<string>

    constructor (files: map<string, string>, dirs: set<string>)
      ensures this.files == files && this.dirs == dirs
    {
      this.files := files;
      this.dirs := dirs;
    }
  }

  /** The dirty marker is written with "true" only when nothing exists at its
      path; everything else is left as it was. */
  function MarkDirty(files: map<string, string>, dirs: set<string>, marker: string): (r: map<string, string>)
    ensures marker in r || marker in dirs
    ensures marker in files ==> r == files
    ensures marker !in files && marker !in dirs ==> r == files[marker := "true"]
    ensures marker in dirs ==> r == files
  {
    if marker in files || marker in dirs then files else files[marker := "true"]
  }

  /** Marking twice leaves the marker as marking once did. */
  lemma MarkDirtyIdempotent(files: map<string, string>, dirs: set<string>, marker: string)
    ensures MarkDirty(MarkDirty(files, dirs, marker), dirs, marker) == MarkDirty(files, dirs, marker)
  {
  }

  /** The result the stage resolves with: `{files: newFiles}`. */
  function FilesResult(outputs: seq<string>): Value {
    Obj(map["files" := Arr(seq(|outputs|, k requires 0 <= k < |outputs| => Str(outputs[k])))])
  }

  /** The media entries of `job.data.media`: none when the list is absent or
      falsy, the array's elements otherwise, and a thrown TypeError when `data`
      itself cannot be read or `media` is some other value. */
  function MediaItems(data: Value): (r: Result<seq<Value>>)
    ensures r.Err? ==> r.error == TypeError
    ensures r.Ok? <==> !data.Undefined? && !data.Null? && (!Truthy(Get(data, "media")) || Get(data, "media").Arr?)
    ensures r.Ok? && Get(data, "media").Arr? ==> r.value == Get(data, "media").items
    ensures r.Ok? && !Get(data, "media").Arr? ==> r.value == []
  {
    if data.Undefined? || data.Null? then Err(TypeError)
    else
      var media := Get(data, "media");
      if !Truthy(media) then Ok([])
      else if media.Arr? then Ok(media.items)
      else Err(TypeError)
  }

  /** The stage function for one job whose previous stage returned `data`. */
  method RunJob(fs: FileSystem, c: Converter, jobId: string, data: Value, transcode: Options -> FileOutcome)
    returns (result: Result<Value>, events: seq<Event>)
    modifies fs
    ensures var baseDir := Join(c.transcodingPath, jobId);
      && fs.dirs == old(fs.dirs) + {baseDir}
      && (data.Undefined? || data.Null? ==> result == Err(TypeError) && fs.files == old(fs.files))
      && (!data.Undefined? && !data.Null? ==>
            fs.files == MarkDirty(old(fs.files), fs.dirs, Join(baseDir, "dirty")))
      && (MediaItems(data).Ok? ==>
            var run := RunFiles(c, baseDir, MediaItems(data).value, 0, transcode);
            && (run.failure.None? ==> result == Ok(FilesResult(OutputPaths(baseDir, run.started)))
                                      && events == [Status("processing")] + run.events + [Status("complete")])
            && (run.failure.Some? ==> result == Err(run.failure.value)
                                      && events == [Status("processing")] + run.events))
      && (MediaItems(data).Err? ==> result == Err(TypeError) && events == [Status("processing")])
  {
    events := [Status("processing")];
    var baseDir := Join(c.transcodingPath, jobId);
    var dirtyBit := Join(baseDir, "dirty");
    fs.dirs := fs.dirs + {baseDir};
    if data.Undefined? || data.Null? {
      return Err(TypeError), events;
    }
    if !(dirtyBit in fs.files || dirtyBit in fs.dirs) {
      fs.files := fs.files[dirtyBit := "true"];
    }
    var items := MediaItems(data);
    if items.Err? {
      return Err(TypeError), events;
    }
    var newFiles, fileEvents, failure := ConvertFiles(c, baseDir, items.value, transcode);
    events := events + fileEvents;
    if failure.Some? {
      return Err(failure.value), events;
    }
    events := events + [Status("complete")];
    result := Ok(FilesResult(newFiles));
  }
}

=== FILE: download.dfy ===
/** The download stage of lib/download.js: it lays out the job's download
    directory, fetches the job's stored objects into it one after the other,
    and describes the directory's listing as the media list the convert stage
    reads. Object storage and the file system are oracles: the object listing
    and the directory listing are given as results, a fetch as a total function
    from the request to the error it throws, if any. */
module Download {
  import opened Js
  import opened Paths
  import Convert

  /** `path.join(pathPrefix, download_path, job.id)`. */
  function DownloadPath(repoRoot: string, configured: string, jobId: string): (r: string)
    ensures IsAbsolute(configured) ==> r == configured + "/" + jobId
    ensures !IsAbsolute(configured) && repoRoot != "" ==> r == repoRoot + "/" + configured + "/" + jobId
  {
    Join(Resolve(repoRoot, configured), jobId)
  }

  /** The job's files go in a directory named after the job. */
  lemma DownloadPathLayout(repoRoot: string, configured: string, jobId: string)
    ensures jobId != "" && '/' !in jobId ==> Basename(DownloadPath(repoRoot, configured, jobId)) == jobId
  {
    if jobId != "" && '/' !in jobId {
      BasenameOfJoin(Resolve(repoRoot, configured), jobId);
    }
  }

  /** `s3Client.fGetObject(bucket, name, destination)`. */
  datatype FetchRequest = FetchRequest(bucket: string, name: string, destination: string)

  /** `b` is what follows the last '/' of `name`, or all of `name` when it has none. */
  predicate IsLastSegment(b: string, name: string)
  {
    |b| <= |name| && b == name[|name| - |b|..] && (|b| < |name| ==> name[|name| - |b| - 1] == '/')
  }

  /** Where an object is saved: the download directory and the object name's
      last segment. An object stored under a key with folders is saved
      directly in the download directory under its own name. */
  function Destination(dir: string, name: string): (d: string)
    ensures dir != "" ==> |d| > |dir| && d[..|dir|] == dir && d[|dir|] == '/' && '/' !in d[|dir| + 1..]
    ensures dir != "" && (name == "" || name[|name| - 1] != '/') ==> IsLastSegment(d[|dir| + 1..], name)
  {
    var b := Basename(name);
    BasenameShape(name);
    assert dir != "" ==> (dir + "/" + b)[..|dir|] == dir && (dir + "/" + b)[|dir| + 1..] == b;
    Join(dir, b)
  }

  /** The fetch loop: every object in listing order, saved under
      `Destination`, stopping at the first fetch that throws; that error is
      rethrown. */
  method FetchObjects(bucket: string, dir: string, names: seq<string>, fetch: FetchRequest -> Option<Value>)
    returns (requests: seq<FetchRequest>, failure: Option<Value>)
    ensures |requests| <= |names|
    ensures forall k :: 0 <= k < |requests| ==>
              requests[k] == FetchRequest(bucket, names[k], Destination(dir, names[k]))
    ensures forall k :: 0 <= k < |requests| - 1 ==> fetch(requests[k]).None?
    ensures failure.None? ==> |requests| == |names| && forall k :: 0 <= k < |requests| ==> fetch(requests[k]).None?
    ensures failure.Some? ==> |requests| > 0 && fetch(requests[|requests| - 1]) == failure
  {
    requests := [];
    var k := 0;
    while k < |names|
      invariant 0 <= k <= |names| && |requests| == k
      invariant forall j :: 0 <= j < k ==> requests[j] == FetchRequest(bucket, names[j], Destination(dir, names[j]))
      invariant forall j :: 0 <= j < k ==> fetch(requests[j]).None?
    {
      var request := FetchRequest(bucket, names[k], Destination(dir, names[k]));
      requests := requests + [request];
      var thrown := fetch(request);
      if thrown.Some? {
        return requests, thrown;
      }
      k := k + 1;
    }
    failure := None;
  }

  /** The entry the convert stage reads for one listed file: `{path}`. */
  function MediaEntry(dir: string, entry: string): Value {
    Obj(map["path" := Str(Join(dir, entry))])
  }

  /** The loop over the directory listing: one entry per listed name, in
      listing order. */
  method MediaList(dir: string, listing: seq<string>) returns (media: seq<Value>)
    ensures |media| == |listing|
    ensures forall k :: 0 <= k < |listing| ==> media[k] == MediaEntry(dir, listing[k])
  {
    media := [];
    for k := 0 to |listing|
      invariant |media| == k
      invariant forall j :: 0 <= j < k ==> media[j] == MediaEntry(dir, listing[j])
    {
      media := media + [MediaEntry(dir, listing[k])];
    }
  }

  /** The stage's result: `{media: mediaFiles}`. */
  function DownloadResult(media: seq<Value>): Value {
    Obj(map["media" := Arr(media)])
  }

  /** The stage function for job `jobId`: list the stored objects, fetch them
      all, list the download directory, report 'downloaded' and resolve with
      the media list. The media list is built from the directory listing
      alone, whatever the fetched objects were. */
  method RunDownload(repoRoot: string, configured: string, jobId: string,
                     objects: Result<seq<string>>, fetch: FetchRequest -> Option<Value>,
                     listing: Result<seq<string>>)
    returns (result: Result<Value>, requests: seq<FetchRequest>, statuses: seq<string>)
    ensures objects.Err? ==> result == Err(objects.error) && requests == [] && statuses == []
    ensures objects.Ok? ==> |requests| <= |objects.value|
    ensures objects.Ok? ==> forall k :: 0 <= k < |requests| ==>
              requests[k] == FetchRequest(jobId, objects.value[k],
                                          Destination(DownloadPath(repoRoot, configured, jobId), objects.value[k]))
    ensures result.Ok? <==> objects.Ok? && listing.Ok? && |requests| == |objects.value|
                            && forall k :: 0 <= k < |requests| ==> fetch(requests[k]).None?
    ensures result.Ok? ==> statuses == ["downloaded"]
    ensures result.Ok? ==>
              exists media :: result.value == DownloadResult(media) && |media| == |listing.value| &&
                forall k :: 0 <= k < |media| ==>
                  media[k] == MediaEntry(DownloadPath(repoRoot, configured, jobId), listing.value[k])
    ensures result.Err? ==> statuses == []
    ensures objects.Ok? ==> forall k :: 0 <= k < |requests| - 1 ==> fetch(requests[k]).None?
    ensures result.Err? && objects.Ok? ==>
              || (|requests| > 0 && fetch(requests[|requests| - 1]) == Some(result.error))
              || (&& |requests| == |objects.value| && (forall k :: 0 <= k < |requests| ==> fetch(requests[k]).None?)
                  && listing.Err? && result.error == listing.error)
  {
    statuses := [];
    var dir := DownloadPath(repoRoot, configured, jobId);
    if objects.Err? {
      return Err(objects.error), [], [];
    }
    var failure;
    requests, failure := FetchObjects(jobId, dir, objects.value, fetch);
    if failure.Some? {
      if |requests| == |objects.value| {
        assert !fetch(requests[|requests| - 1]).None?;
      }
      return Err(failure.value), requests, [];
    }
    if listing.Err? {
      return Err(listing.error), requests, [];
    }
    var media := MediaList(dir, listing.value);
    statuses := ["downloaded"];
    result := Ok(DownloadResult(media));
  }

  /** The convert stage reads back exactly what the download stage produced:
      its media list, the path of every listed entry in the download directory
      in listing order, and for a plain file name the output the convert stage
      derives from that path is the one it derives from the name alone. */
  lemma ConvertReadsDownloadResult(dir: string, listing: seq<string>, media: seq<Value>, baseDir: string)
    requires |media| == |listing|
    requires forall k :: 0 <= k < |listing| ==> media[k] == MediaEntry(dir, listing[k])
    ensures Convert.MediaItems(DownloadResult(media)) == Ok(media)
    ensures forall k :: 0 <= k < |media| ==> Convert.ItemPath(media[k]) == Some(Join(dir, listing[k]))
    ensures forall k :: 0 <= k < |media| && listing[k] != "" && '/' !in listing[k] ==>
              Convert.OutputPath(baseDir, Join(dir, listing[k])) == Join(baseDir, OutputName(listing[k]))
  {
    forall k | 0 <= k < |media| && listing[k] != "" && '/' !in listing[k]
      ensures Convert.OutputPath(baseDir, Join(dir, listing[k])) == Join(baseDir, OutputName(listing[k]))
    {
      OutputNameUnderDir(dir, listing[k]);
    }
  }
}

=== FILE: js.dfy ===
/** JavaScript values as far as the worker inspects them, with the two wrapper
    types the rest of the model uses for optional values and for the outcome of
    an operation that may throw or reject. */
module Js {

  datatype Option<+T> = None | Some(value: T)

  /** The outcome of an awaited call: it returned a value, or it threw / rejected. */
  datatype Result<+T> = Ok(value: T) | Err(error: Value)

  /** A JavaScript value. `ErrorObj` is an instance of `Error` (its `message` and
      its `code` property); `Obj` is any other plain object, `Arr` an array. */
  datatype Value =
    | Undefined
    | Null
    | Bool(b: bool)
    | Num(n: int)
    | Str(s: string)
    | Arr(items: seq<Value>)
    | Obj(fields: map<string, Value>)
    | ErrorObj(message: string, code: Value)

  /** JavaScript truthiness (NaN and -0 are not represented). */
  predicate Truthy(v: Value) {
    match v
    case Undefined => false
    case Null => false
    case Bool(b) => b
    case Num(n) => n != 0
    case Str(s) => s != ""
    case _ => true
  }

  /** `typeof v === 'object'`. */
  predicate TypeofObject(v: Value) {
    v.Null? || v.Arr? || v.Obj? || v.ErrorObj?
  }

  /** Property read `v[key]` on a plain object; `undefined` when absent. */
  function Get(v: Value, key: string): (r: Value)
    ensures !v.Obj? ==> r == Undefined
    ensures v.Obj? && key in v.fields ==> r == v.fields[key]
  {
    if v.Obj? && key in v.fields then v.fields[key] else Undefined
  }

  /** `new Error(message)`: an Error whose `code` is undefined. */
  function NewError(message: string): Value {
    ErrorObj(message, Undefined)
  }

  /** `undefined` or `null`: reading a property of it throws a TypeError. */
  predicate Nullish(v: Value) {
    v.Undefined? || v.Null?
  }

  /** The TypeError a property read on undefined, or a call of a non-function, throws. */
  const TypeError: Value := NewError("TypeError")

  /** `{}` */
  const EmptyObject: Value := Obj(map[])
}

=== FILE: main.dfy ===
/** The job processor of lib/main.js: it validates a job, classifies it as a
    movie or a tv show, loads the three stage modules, runs the stages in their
    fixed order handing each one's result to the next, and reports the job as
    done or failed. The stage functions are oracles: total functions from the
    object a stage receives to what it returns or throws. */
module Pipeline {
  import opened Js

  datatype StageName = DownloadStage | ConvertStage | DeployStage

  /** The fixed stage order. */
  const Stages: seq<StageName> := [DownloadStage, ConvertStage, DeployStage]

  function StageId(s: StageName): string {
    match s
    case DownloadStage => "download"
    case ConvertStage => "convert"
    case DeployStage => "deploy"
  }

  datatype MediaType = Tv | Movie

  /** The job's payload (`container.data`): `id`, `card`, `media` and `data`. */
  datatype Payload = Payload(id: Value, card: Value, media: Value, data: Value)

  /** A queue job (`container`): its queue id and its payload. */
  datatype Job = Job(id: nat, payload: Payload)

  /** An entry of the worker's `activeJobs` list. */
  datatype ActiveJob = ActiveJob(cardId: Value, jobId: nat)

  /** What a stage function receives: the static job data and the previous
      stage's result as `data`. */
  datatype StageInput = StageInput(id: Value, card: Value, media: Value, mediaType: MediaType, data: Value)

  datatype StageResult = Returned(value: Value) | Threw(error: Value)

  type StageFn = StageInput -> StageResult

  /** What loading a stage module and calling its factory gives: a function, some
      other value, or an Error thrown while loading. */
  datatype StageModule = Function(fn: StageFn) | NotFunction(value: Value) | FactoryThrew(message: string)

  /** How the job is reported back to the queue: `done()` or `done(err)`; or
      not at all, when the catch block itself throws and its error escapes the
      processor as an unhandled rejection. */
  datatype JobOutcome = Completed | Failed(error: Value) | Crashed(error: Value)

  /** The record published on the metrics channel when a stage throws. */
  datatype ErrorMetrics = ErrorMetrics(job: Value, host: string, message: string, code: Value)

  datatype Invocation = Invocation(stage: StageName, input: StageInput)

  /** What one call of the processor did: how the job was reported, which stage
      functions it invoked with which input, and the error metrics it published. */
  datatype Report = Report(done: JobOutcome, invoked: seq<Invocation>, metrics: Option<ErrorMetrics>)

  // ---------------------------------------------------------------- validation

  /** `data.card` is present and `typeof` gives 'object'. */
  predicate ValidCard(card: Value) {
    Truthy(card) && TypeofObject(card)
  }

  /** An element matched by lodash's `{name: 'Movie'}` shorthand. */
  predicate IsMovieLabel(v: Value) {
    v.Obj? && "name" in v.fields && v.fields["name"] == Str("Movie")
  }

  /** `_.find` over an array: the index of the first matching element. */
  function FindMovieLabel(xs: seq<Value>): (r: Option<nat>)
    ensures r.Some? ==> r.value < |xs| && IsMovieLabel(xs[r.value])
    ensures r.Some? ==> forall j :: 0 <= j < r.value ==> !IsMovieLabel(xs[j])
    ensures r.None? ==> forall j :: 0 <= j < |xs| ==> !IsMovieLabel(xs[j])
  {
    if xs == [] then None
    else if IsMovieLabel(xs[0]) then Some(0)
    else match FindMovieLabel(xs[1..])
      case None => None
      case Some(k) => Some(k + 1)
  }

  /** `_.find(labels, {name: 'Movie'})` finds something: over an array's
      elements, or over a plain object's property values. */
  predicate FindsMovieLabel(labels: Value) {
    match labels
    case Arr(xs) => FindMovieLabel(xs).Some?
    case Obj(m) => exists k | k in m :: IsMovieLabel(m[k])
    case _ => false
  }

  /** The values `_.find` iterates over. */
  function Elements(v: Value): set<Value> {
    match v
    case Arr(xs) => set x | x in xs
    case Obj(m) => m.Values
    case _ => {}
  }

  /** The media type: a movie exactly when some label of the card is named 'Movie'. */
  function MediaTypeOf(card: Value): (t: MediaType)
    ensures t == Movie <==> exists l :: l in Elements(Get(card, "labels")) && IsMovieLabel(l)
  {
    var labels := Get(card, "labels");
    assert labels.Arr? && FindMovieLabel(labels.items).Some? ==>
             labels.items[FindMovieLabel(labels.items).value] in Elements(labels);
    if FindsMovieLabel(labels) then Movie else Tv
  }

  // ------------------------------------------------------------ stage loading

  function InvalidStageError(s: StageName): Value {
    NewError("Invalid stage '" + StageId(s) + "' return value was not a function")
  }

  /** The error a loaded module produces, if it is not usable as a stage. */
  function ModuleError(s: StageName, m: StageModule): Option<Value> {
    match m
    case Function(_) => None
    case NotFunction(_) => Some(InvalidStageError(s))
    case FactoryThrew(msg) => Some(NewError(msg))
  }

  /** Loading the modules of `Stages[i..]`: all of their functions in stage
      order, or the error of the first one that is not a function. */
  function InitStages(load: StageName -> StageModule, i: nat): (r: Result<seq<StageFn>>)
    requires i <= |Stages|
    ensures r.Ok? <==> forall j :: i <= j < |Stages| ==> load(Stages[j]).Function?
    ensures r.Ok? ==> |r.value| == |Stages| - i
    ensures r.Ok? ==> forall j :: i <= j < |Stages| ==> r.value[j - i] == load(Stages[j]).fn
    ensures r.Err? ==> exists j :: i <= j < |Stages| && Some(r.error) == ModuleError(Stages[j], load(Stages[j]))
                                   && forall j' :: i <= j' < j ==> load(Stages[j']).Function?
    decreases |Stages| - i
  {
    if i == |Stages| then Ok([])
    else match load(Stages[i])
      case NotFunction(_) => Err(InvalidStageError(Stages[i]))
      case FactoryThrew(msg) => Err(NewError(msg))
      case Function(fn) =>
        match InitStages(load, i + 1)
        case Err(e) => Err(e)
        case Ok(fns) => Ok([fn] + fns)
  }

  // --------------------------------------------------------------- stage loop

  datatype LoopResult = LoopResult(invoked: seq<Invocation>, threw: Option<Value>)

  /** The stage loop from stage `i` on, the previous result being `data`: each
      stage is called with `data` set to what the previous one returned, and the
      first stage that throws ends the loop. */
  function RunStages(fns: seq<StageFn>, base: StageInput, i: nat, data: Value): (r: LoopResult)
    requires |fns| == |Stages| && i <= |Stages|
    ensures |r.invoked| <= |Stages| - i
    ensures r.threw.None? ==> |r.invoked| == |Stages| - i
    ensures r.threw.Some? ==> 0 < |r.invoked|
    decreases |Stages| - i
  {
    if i == |Stages| then LoopResult([], None)
    else
      var input := base.(data := data);
      match fns[i](input)
      case Threw(e) => LoopResult([Invocation(Stages[i], input)], Some(e))
      case Returned(v) =>
        var rest := RunStages(fns, base, i + 1, v);
        LoopResult([Invocation(Stages[i], input)] + rest.invoked, rest.threw)
  }

  /** Stages run in the fixed order, each at most once, every one with the
      static job data. */
  lemma {:induction false} RunStagesOrder(fns: seq<StageFn>, base: StageInput, i: nat, data: Value)
    requires |fns| == |Stages| && i <= |Stages|
    ensures var r := RunStages(fns, base, i, data);
      && |r.invoked| <= |Stages| - i
      && (forall k :: 0 <= k < |r.invoked| ==> r.invoked[k].stage == Stages[i + k])
      && (forall k :: 0 <= k < |r.invoked| ==> r.invoked[k].input == base.(data := r.invoked[k].input.data))
    decreases |Stages| - i
  {
    if i < |Stages| {
      var input := base.(data := data);
      if fns[i](input).Returned? {
        RunStagesOrder(fns, base, i + 1, fns[i](input).value);
      }
    }
  }

  /** The first stage called receives `data`; every later one receives what the
      stage before it returned. */
  lemma {:induction false} RunStagesHandOff(fns: seq<StageFn>, base: StageInput, i: nat, data: Value)
    requires |fns| == |Stages| && i <= |Stages|
    ensures var r := RunStages(fns, base, i, data);
      && (|r.invoked| > 0 ==> r.invoked[0].input.data == data)
      && forall k :: 0 <= k < |r.invoked| - 1 ==>
           fns[i + k](r.invoked[k].input) == Returned(r.invoked[k + 1].input.data)
    decreases |Stages| - i
  {
    if i < |Stages| {
      var input := base.(data := data);
      if fns[i](input).Returned? {
        var v := fns[i](input).value;
        RunStagesHandOff(fns, base, i + 1, v);
        RunStagesOrder(fns, base, i + 1, v);
      }
    }
  }

  /** The loop stops at the first stage that throws: every stage before it
      returned, none after it was called, and the loop reports its error. When
      no stage throws, all of them were called. */
  lemma {:induction false} RunStagesFailFast(fns: seq<StageFn>, base: StageInput, i: nat, data: Value)
    requires |fns| == |Stages| && i <= |Stages|
    ensures var r := RunStages(fns, base, i, data);
      && (forall k :: 0 <= k < |r.invoked| - 1 ==> fns[i + k](r.invoked[k].input).Returned?)
      && (r.threw.None? ==> |r.invoked| == |Stages| - i
                            && forall k :: 0 <= k < |r.invoked| ==> fns[i + k](r.invoked[k].input).Returned?)
      && (r.threw.Some? ==> |r.invoked| > 0
                            && fns[i + |r.invoked| - 1](r.invoked[|r.invoked| - 1].input) == Threw(r.threw.value))
    decreases |Stages| - i
  {
    if i < |Stages| {
      var input := base.(data := data);
      if fns[i](input).Returned? {
        var v := fns[i](input).value;
        RunStagesFailFast(fns, base, i + 1, v);
        RunStagesHandOff(fns, base, i + 1, v);
      }
    }
  }

  /** The processor loop's invariant: the stages invoked so far, followed by
      the loop from stage `i` on, are the whole loop. */
  predicate LoopSoFar(fns: seq<StageFn>, base: StageInput, i: nat, data: Value, invoked: seq<Invocation>)
    requires |fns| == |Stages| && i <= |Stages|
  {
    var rest := RunStages(fns, base, i, data);
    RunStages(fns, base, 0, EmptyObject) == LoopResult(invoked + rest.invoked, rest.threw)
  }

  /** A stage that returns moves from the rest of the loop to the invoked ones. */
  lemma LoopSoFarAdvance(fns: seq<StageFn>, base: StageInput, i: nat, data: Value, invoked: seq<Invocation>)
    requires |fns| == |Stages| && i < |Stages|
    requires fns[i](base.(data := data)).Returned?
    requires LoopSoFar(fns, base, i, data, invoked)
    ensures LoopSoFar(fns, base, i + 1, fns[i](base.(data := data)).value,
                      invoked + [Invocation(Stages[i], base.(data := data))])
  {
    var inv := Invocation(Stages[i], base.(data := data));
    var rest := RunStages(fns, base, i + 1, fns[i](base.(data := data)).value);
    assert RunStages(fns, base, i, data).invoked == [inv] + rest.invoked;
    assert invoked + ([inv] + rest.invoked) == (invoked + [inv]) + rest.invoked;
  }

  /** A stage that throws ends the loop with its error. */
  lemma LoopSoFarThrew(fns: seq<StageFn>, base: StageInput, i: nat, data: Value, invoked: seq<Invocation>)
    requires |fns| == |Stages| && i < |Stages|
    requires fns[i](base.(data := data)).Threw?
    requires LoopSoFar(fns, base, i, data, invoked)
    ensures RunStages(fns, base, 0, EmptyObject) ==
              LoopResult(invoked + [Invocation(Stages[i], base.(data := data))], Some(fns[i](base.(data := data)).error))
  {
  }

  // ------------------------------------------------------------------ outcome

  /** The `done` wrapper: `realDone(err)` when `err` is truthy, `realDone()` otherwise. */
  function Done(err: Value): (r: JobOutcome)
    ensures r.Failed? <==> Truthy(err)
    ensures r.Failed? ==> r.error == err
  {
    if Truthy(err) then Failed(err) else Completed
  }

  /** The error metrics: the defaults unless the examined value is an Error. */
  function ErrorMetricsFor(jobId: Value, host: string, examined: Value): (m: ErrorMetrics)
    ensures m.job == jobId && m.host == host
    ensures examined.ErrorObj? ==> m.message == examined.message && m.code == examined.code
    ensures !examined.ErrorObj? ==> m.message == "Internal Server Error" && m.code == Str("ERRNOCODE")
  {
    if examined.ErrorObj? then ErrorMetrics(jobId, host, examined.message, examined.code)
    else ErrorMetrics(jobId, host, "Internal Server Error", Str("ERRNOCODE"))
  }

  /** The catch block as written. Its log line reads `err.message`, which throws
      a TypeError when the caught value is `undefined` or `null`: then nothing
      is published and the job is not reported. Otherwise both the metrics and
      the outcome are taken from the payload's `data` field, never from the
      caught error. */
  function OnStageFailure(caught: Value, payload: Payload, host: string): (r: (JobOutcome, Option<ErrorMetrics>))
    ensures r.0.Crashed? <==> Nullish(caught)
    ensures r.0.Crashed? ==> r.0.error == TypeError && r.1.None?
    ensures !r.0.Crashed? ==> (r.0.Failed? <==> Truthy(payload.data))
    ensures r.0.Failed? ==> r.0.error == payload.data
    ensures !r.0.Crashed? ==> r.1.Some? && r.1.value.job == payload.id && r.1.value.host == host
    ensures !r.0.Crashed? && payload.data.ErrorObj? ==>
              r.1.value.message == payload.data.message && r.1.value.code == payload.data.code
    ensures !r.0.Crashed? && !payload.data.ErrorObj? ==>
              r.1.value.message == "Internal Server Error" && r.1.value.code == Str("ERRNOCODE")
  {
    if Nullish(caught) then (Crashed(TypeError), None)
    else (Done(payload.data), Some(ErrorMetricsFor(payload.id, host, payload.data)))
  }

  /** The catch block as evidently intended: the log line is unchanged, and the
      caught error is reported and published. */
  function OnStageFailureIntended(caught: Value, payload: Payload, host: string): (r: (JobOutcome, Option<ErrorMetrics>))
    ensures r.0.Crashed? <==> Nullish(caught)
    ensures r.0.Crashed? ==> r.0.error == TypeError && r.1.None?
    ensures !r.0.Crashed? ==> (r.0.Failed? <==> Truthy(caught))
    ensures r.0.Failed? ==> r.0.error == caught
    ensures !r.0.Crashed? ==> r.1.Some? && r.1.value.job == payload.id && r.1.value.host == host
    ensures !r.0.Crashed? && caught.ErrorObj? ==> r.1.value.message == caught.message && r.1.value.code == caught.code
    ensures !r.0.Crashed? && !caught.ErrorObj? ==>
              r.1.value.message == "Internal Server Error" && r.1.value.code == Str("ERRNOCODE")
  {
    if Nullish(caught) then (Crashed(TypeError), None)
    else (Done(caught), Some(ErrorMetricsFor(payload.id, host, caught)))
  }

  /** The input every stage shares, before `data` is set. */
  function BaseInput(job: Job): StageInput {
    StageInput(job.payload.id, job.payload.card, job.payload.media, MediaTypeOf(job.payload.card), Undefined)
  }

  /** What the processor does with one job. */
  function ProcessSpec(job: Job, load: StageName -> StageModule, host: string): (r: Report)
    ensures |r.invoked| <= |Stages|
    ensures r.invoked != [] ==> ValidCard(job.payload.card) && InitStages(load, 0).Ok?
    ensures r.metrics.Some? || r.done.Crashed? ==> ValidCard(job.payload.card) && 0 < |r.invoked|
    ensures r.done.Crashed? ==> r.done.error == TypeError && r.metrics.None?
    ensures r.metrics.None? && !r.done.Crashed? && r.invoked != [] ==> r.done == Completed && |r.invoked| == |Stages|
  {
    if !ValidCard(job.payload.card) then Report(Completed, [], None)
    else match InitStages(load, 0)
      case Err(e) => Report(Done(e), [], None)
      case Ok(fns) =>
        var run := RunStages(fns, BaseInput(job), 0, EmptyObject);
        match run.threw
        case None => Report(Completed, run.invoked, None)
        case Some(e) =>
          var (done, metrics) := OnStageFailure(e, job.payload, host);
          Report(done, run.invoked, metrics)
  }

  /** A job without a card object completes without error and invokes no stage. */
  lemma InvalidCardSkipsStages(job: Job, load: StageName -> StageModule, host: string)
    requires !ValidCard(job.payload.card)
    ensures ProcessSpec(job, load, host) == Report(Completed, [], None)
  {
  }

  /** If a stage module is not a function, the job fails with the error of the
      first such module before any stage runs. */
  lemma InitFailureRunsNoStage(job: Job, load: StageName -> StageModule, host: string, j: nat)
    requires ValidCard(job.payload.card)
    requires j < |Stages| && !load(Stages[j]).Function?
    requires forall j' :: 0 <= j' < j ==> load(Stages[j']).Function?
    ensures var r := ProcessSpec(job, load, host);
      r.invoked == [] && r.metrics == None && r.done == Failed(ModuleError(Stages[j], load(Stages[j])).value)
  {
    var init := InitStages(load, 0);
    assert init.Err?;
    var k :| 0 <= k < |Stages| && Some(init.error) == ModuleError(Stages[k], load(Stages[k]))
             && forall j' :: 0 <= j' < k ==> load(Stages[j']).Function?;
    assert k == j;
  }

  /** With every module loaded, the stages are invoked in the fixed order, each
      at most once, with the job's static data and its media type; the first
      receives `{}` and each later one what the previous one returned. */
  lemma StagesRunInOrder(job: Job, load: StageName -> StageModule, host: string)
    requires ValidCard(job.payload.card)
    requires forall j :: 0 <= j < |Stages| ==> load(Stages[j]).Function?
    ensures var r := ProcessSpec(job, load, host);
      && |r.invoked| <= |Stages|
      && (forall k :: 0 <= k < |r.invoked| ==> r.invoked[k].stage == Stages[k])
      && (forall k :: 0 <= k < |r.invoked| ==> r.invoked[k].input == BaseInput(job).(data := r.invoked[k].input.data))
      && (forall k :: 0 <= k < |r.invoked| ==> r.invoked[k].input.mediaType == MediaTypeOf(job.payload.card))
      && (|r.invoked| > 0 ==> r.invoked[0].input.data == EmptyObject)
      && forall k :: 0 <= k < |r.invoked| - 1 ==>
           load(Stages[k]).fn(r.invoked[k].input) == Returned(r.invoked[k + 1].input.data)
  {
    var fns := InitStages(load, 0).value;
    var r := RunStages(fns, BaseInput(job), 0, EmptyObject);
    assert ProcessSpec(job, load, host).invoked == r.invoked;
    RunStagesOrder(fns, BaseInput(job), 0, EmptyObject);
    RunStagesHandOff(fns, BaseInput(job), 0, EmptyObject);
    forall k | 0 <= k < |r.invoked| - 1
      ensures load(Stages[k]).fn(r.invoked[k].input) == Returned(r.invoked[k + 1].input.data)
    {
      assert fns[k] == load(Stages[k]).fn;
    }
  }

  /** With every module loaded: if no stage throws, all three ran and the job
      completes; if one throws, it is the last one invoked and every earlier one
      returned. A thrown `undefined` or `null` makes the catch block throw, so
      the job is not reported and nothing is published; any other thrown value
      reports the job with the payload's `data` field and the metrics derived
      from it. */
  lemma StageFailureStopsRun(job: Job, load: StageName -> StageModule, host: string)
    requires ValidCard(job.payload.card)
    requires forall j :: 0 <= j < |Stages| ==> load(Stages[j]).Function?
    ensures var r := ProcessSpec(job, load, host);
      var n := |r.invoked|;
      && (forall k :: 0 <= k < n - 1 ==> load(Stages[k]).fn(r.invoked[k].input).Returned?)
      && (r.metrics.None? && !r.done.Crashed? <==>
            n == |Stages| && forall k :: 0 <= k < n ==> load(Stages[k]).fn(r.invoked[k].input).Returned?)
      && (r.metrics.None? && !r.done.Crashed? ==> r.done == Completed)
      && (r.metrics.Some? || r.done.Crashed? ==>
            && 0 < n
            && load(Stages[n - 1]).fn(r.invoked[n - 1].input).Threw?
            && (Nullish(load(Stages[n - 1]).fn(r.invoked[n - 1].input).error) ==>
                  r.done == Crashed(TypeError) && r.metrics.None?)
            && (!Nullish(load(Stages[n - 1]).fn(r.invoked[n - 1].input).error) ==>
                  r.done == Done(job.payload.data)
                  && r.metrics == Some(ErrorMetricsFor(job.payload.id, host, job.payload.data))))
  {
    var fns := InitStages(load, 0).value;
    RunStagesFailFast(fns, BaseInput(job), 0, EmptyObject);
  }

  // Finding: a concrete job whose first stage throws and which is nevertheless
  // reported to the queue as completed.

  const FailingStage: StageFn := (input: StageInput) => Threw(NewError("download failed"))
  const FailingLoad: StageName -> StageModule := (s: StageName) => Function(FailingStage)
  const CardJob: Job := Job(1, Payload(Str("card-1"), Obj(map[]), Undefined, Undefined))

  /** As written, a thrown stage error is lost: the job completes. */
  lemma ThrownStageErrorIsLost()
    ensures var r := ProcessSpec(CardJob, FailingLoad, "worker");
      && r.invoked == [Invocation(DownloadStage, BaseInput(CardJob).(data := EmptyObject))]
      && r.metrics.Some? && r.metrics.value.message == "Internal Server Error"
      && r.done == Completed
  {
    assert ValidCard(CardJob.payload.card);
    var fns := InitStages(FailingLoad, 0).value;
    assert fns[0] == FailingStage;
  }

  const UndefinedStage: StageFn := (input: StageInput) => Threw(Undefined)
  const UndefinedLoad: StageName -> StageModule := (s: StageName) => Function(UndefinedStage)

  /** A stage that rejects with `undefined` makes the catch block throw: the
      job is neither completed nor failed and no metrics are published. */
  lemma UndefinedThrowIsUnreported()
    ensures var r := ProcessSpec(CardJob, UndefinedLoad, "worker");
      && r.invoked == [Invocation(DownloadStage, BaseInput(CardJob).(data := EmptyObject))]
      && r.metrics.None? && r.done == Crashed(TypeError)
  {
    assert ValidCard(CardJob.payload.card);
    var fns := InitStages(UndefinedLoad, 0).value;
    assert fns[0] == UndefinedStage;
  }

  /** As intended, a stage that throws an Error fails the job with that error and
      publishes its message and code. */
  lemma IntendedStageFailure(caught: Value, payload: Payload, host: string)
    requires caught.ErrorObj?
    ensures var (done, metrics) := OnStageFailureIntended(caught, payload, host);
      done == Failed(caught) && metrics.Some? && metrics.value.message == caught.message
      && metrics.value.code == caught.code
  {
  }

  // --------------------------------------------------------------- the worker

  datatype ShutdownResult = Exit(code: int) | Rejected(error: Value)

  /** A request to mark a queue job failed with a given error. */
  datatype MarkRequest = MarkRequest(jobId: nat, error: Value)

  /** The worker's state shared by all jobs: the list of every job it received
      and the flag the health endpoint reports. */
  class Worker {
    var activeJobs: seq<ActiveJob>
    var isProcessing: bool

    constructor ()
      ensures activeJobs == [] && !isProcessing
    {
      activeJobs := [];
      isProcessing := false;
    }

    /** The processor: records the job, then validates, loads and runs it. */
    method Process(job: Job, load: StageName -> StageModule, host: string) returns (report: Report)
      modifies this
      ensures activeJobs == old(activeJobs) + [ActiveJob(job.payload.id, job.id)]
      ensures report == ProcessSpec(job, load, host)
      ensures !ValidCard(job.payload.card) ==> isProcessing == old(isProcessing)
      ensures ValidCard(job.payload.card) ==> isProcessing == (report.metrics.None? && !report.done.Crashed?)
    {
      activeJobs := activeJobs + [ActiveJob(job.payload.id, job.id)];
      if !ValidCard(job.payload.card) {
        return Report(Completed, [], None);
      }
      var base := BaseInput(job);
      isProcessing := true;
      var init := InitStages(load, 0);
      if init.Err? {
        return Report(Done(init.error), [], None);
      }
      var fns := init.value;
      var lastStageData := EmptyObject;
      var invoked: seq<Invocation> := [];
      var i := 0;
      while i < |Stages|
        invariant 0 <= i <= |Stages|
        invariant LoopSoFar(fns, base, i, lastStageData, invoked)
        invariant activeJobs == old(activeJobs) + [ActiveJob(job.payload.id, job.id)] && isProcessing
        decreases |Stages| - i
      {
        var input := base.(data := lastStageData);
        var result := fns[i](input);
        if result.Threw? {
          LoopSoFarThrew(fns, base, i, lastStageData, invoked);
          invoked := invoked + [Invocation(Stages[i], input)];
          isProcessing := false;
          var (done, metrics) := OnStageFailure(result.error, job.payload, host);
          return Report(done, invoked, metrics);
        }
        LoopSoFarAdvance(fns, base, i, lastStageData, invoked);
        invoked := invoked + [Invocation(Stages[i], input)];
        lastStageData := result.value;
        i := i + 1;
      }
      assert invoked + [] == invoked;
      report := Report(Completed, invoked, None);
    }

    /** The shutdown handler: exit 0 when no job was ever received; otherwise
        mark each received job failed with a 'SIGINT' Error, in order, and exit 1.
        `markFailed` fetches a job and marks it, giving the error it rejects with. */
    method Shutdown(markFailed: MarkRequest -> Option<Value>) returns (requests: seq<MarkRequest>, result: ShutdownResult)
      ensures activeJobs == [] ==> requests == [] && result == Exit(0)
      ensures forall k :: 0 <= k < |requests| ==> requests[k].error == NewError("SIGINT")
      ensures |requests| <= |activeJobs|
      ensures forall k :: 0 <= k < |requests| ==> requests[k].jobId == activeJobs[k].jobId
      ensures forall k :: 0 <= k < |requests| - 1 ==> markFailed(requests[k]).None?
      ensures activeJobs != [] && result.Exit? ==>
                result.code == 1 && |requests| == |activeJobs| && forall k :: 0 <= k < |requests| ==> markFailed(requests[k]).None?
      ensures result.Rejected? ==> 0 < |requests| && markFailed(requests[|requests| - 1]) == Some(result.error)
    {
      requests := [];
      if |activeJobs| == 0 {
        return requests, Exit(0);
      }
      var i := 0;
      while i < |activeJobs|
        invariant 0 <= i <= |activeJobs| && |requests| == i
        invariant forall k :: 0 <= k < i ==> requests[k] == MarkRequest(activeJobs[k].jobId, NewError("SIGINT"))
        invariant forall k :: 0 <= k < i ==> markFailed(requests[k]).None?
      {
        var request := MarkRequest(activeJobs[i].jobId, NewError("SIGINT"));
        requests := requests + [request];
        var rejected := markFailed(request);
        if rejected.Some? {
          return requests, Rejected(rejected.value);
        }
        i := i + 1;
      }
      result := Exit(1);
    }
  }
}

=== FILE: paths.dfy ===
/** The part of Node's POSIX `path` module the worker relies on, and the two
    path rules of the stages: resolving a configured directory against the
    repository root, and naming a converted file. */
module Paths {

  predicate IsAbsolute(p: string) {
    |p| > 0 && p[0] == '/'
  }

  /** `path.join(a, b)` for segments that are already normal: one separator
      between them, and an empty left part contributes nothing. */
  function Join(a: string, b: string): (r: string)
    ensures a != "" ==> r == a + "/" + b
    ensures a == "" ==> r == b
  {
    if a == "" then b else a + "/" + b
  }

  /** Index of the last occurrence of `c` in `s`, or -1. */
  function LastIndexOf(s: string, c: char): (r: int)
    ensures -1 <= r < |s|
    ensures r >= 0 ==> s[r] == c
  {
    if s == [] then -1
    else if s[|s| - 1] == c then |s| - 1
    else LastIndexOf(s[..|s| - 1], c)
  }

  /** No occurrence of `c` follows the one `LastIndexOf` finds. */
  lemma {:induction false} LastIndexOfIsLast(s: string, c: char)
    ensures forall k :: LastIndexOf(s, c) < k < |s| ==> s[k] != c
  {
    if s != [] && s[|s| - 1] != c {
      LastIndexOfIsLast(s[..|s| - 1], c);
    }
  }

  /** The characters after the last separator of `t` (all of `t` without one). */
  function LastSegment(t: string): string
    decreases |t|
  {
    if t == [] || t[|t| - 1] == '/' then [] else LastSegment(t[..|t| - 1]) + [t[|t| - 1]]
  }

  lemma {:induction false} LastSegmentShape(t: string)
    ensures var r := LastSegment(t); '/' !in r && |r| <= |t| && r == t[|t| - |r|..]
    ensures var r := LastSegment(t); |r| < |t| ==> t[|t| - |r| - 1] == '/'
    decreases |t|
  {
    if t != [] && t[|t| - 1] != '/' {
      var u := t[..|t| - 1];
      LastSegmentShape(u);
      var r := LastSegment(u);
      var c := t[|t| - 1];
      assert LastSegment(t) == r + [c];
      assert '/' !in r + [c];
      assert t[|t| - |r| - 1..] == u[|u| - |r|..] + [c];
      if |r| < |u| {
        assert t[|t| - |r| - 2] == u[|u| - |r| - 1];
      }
    }
  }

  lemma {:induction false} LastSegmentAfterSlash(a: string, n: string)
    requires '/' !in n
    ensures LastSegment(a + "/" + n) == n
    decreases |n|
  {
    var t := a + "/" + n;
    if n != [] {
      var m := n[..|n| - 1];
      assert t[..|t| - 1] == a + "/" + m;
      assert t[|t| - 1] == n[|n| - 1];
      LastSegmentAfterSlash(a, m);
      assert n == m + [n[|n| - 1]];
    }
  }

  /** `path.basename(path.join(dir, name))` is `name` for a plain file name. */
  lemma BasenameOfJoin(dir: string, name: string)
    requires name != "" && '/' !in name
    ensures Basename(Join(dir, name)) == name
  {
    if dir == "" {
      LastSegmentWhole(name);
    } else {
      LastSegmentAfterSlash(dir, name);
    }
  }

  /** `path.basename(p)`: the last segment, ignoring trailing separators. */
  function Basename(p: string): string
    decreases |p|
  {
    if p != [] && p[|p| - 1] == '/' then Basename(p[..|p| - 1]) else LastSegment(p)
  }

  /** The basename holds no separator, and when `p` does not end in one it is
      the suffix of `p` after its last separator. */
  lemma {:induction false} BasenameShape(p: string)
    ensures '/' !in Basename(p)
    ensures p == "" || p[|p| - 1] != '/' ==>
              var r := Basename(p); |r| <= |p| && r == p[|p| - |r|..] && (|r| < |p| ==> p[|p| - |r| - 1] == '/')
    decreases |p|
  {
    if p != [] && p[|p| - 1] == '/' {
      BasenameShape(p[..|p| - 1]);
    } else {
      LastSegmentShape(p);
    }
  }

  /** `path.extname(p)`: from the last '.' of the last segment to its end; empty
      when that segment has no '.', when its only leading character is the '.'
      (a dot file such as ".mkv"), or when it is "..". */
  function Extname(p: string): (r: string)
    ensures r == "" || (r[0] == '.' && '/' !in r && '.' !in r[1..])
  {
    var b := Basename(p);
    BasenameShape(p);
    var d := LastIndexOf(b, '.');
    LastIndexOfIsLast(b, '.');
    if d <= 0 || b == ".." then ""
    else
      assert forall k :: 1 <= k < |b[d..]| ==> b[d..][k] == b[d + k];
      b[d..]
  }

  /** A character matched by the regular-expression class `\w` (no `u` flag). */
  predicate IsWordChar(c: char) {
    ('a' <= c <= 'z') || ('A' <= c <= 'Z') || ('0' <= c <= '9') || c == '_'
  }

  /** `s` is a run of `\w` characters. */
  predicate AllWordChars(s: string)
    decreases |s|
  {
    s == [] || (IsWordChar(s[0]) && AllWordChars(s[1..]))
  }

  lemma {:induction false} AllWordCharsAt(s: string)
    ensures AllWordChars(s) <==> forall k :: 0 <= k < |s| ==> IsWordChar(s[k])
    decreases |s|
  {
    if s != [] {
      AllWordCharsAt(s[1..]);
      assert forall k :: 1 <= k < |s| ==> s[k] == s[1..][k - 1];
    }
  }

  /** The extension of `dir/stem.ext` is `.ext`, whatever `dir` is. */
  lemma ExtnameOfJoin(dir: string, stem: string, ext: string)
    requires stem != "" && '/' !in stem
    requires |ext| >= 2 && ext[0] == '.' && '/' !in ext && '.' !in ext[1..]
    ensures Extname(Join(dir, stem + ext)) == ext
  {
    var b := stem + ext;
    assert '/' !in b by {
      assert forall k :: 0 <= k < |b| ==> b[k] == (if k < |stem| then stem[k] else ext[k - |stem|]);
    }
    BasenameOfJoin(dir, b);
    LastIndexOfIsLast(b, '.');
    var d := LastIndexOf(b, '.');
    assert b[|stem|] == '.';
    assert forall k :: |stem| < k < |b| ==> b[k] == ext[1..][k - |stem| - 1];
    assert d == |stem|;
    assert b[d..] == ext;
  }

  /** A name that is only an extension (a dot file) has none. */
  lemma ExtnameOfDotFile(dir: string, ext: string)
    requires |ext| >= 2 && ext[0] == '.' && '/' !in ext && '.' !in ext[1..]
    ensures Extname(Join(dir, ext)) == ""
  {
    BasenameOfJoin(dir, ext);
    LastIndexOfIsLast(ext, '.');
    assert forall k :: 0 < k < |ext| ==> ext[k] == ext[1..][k - 1];
    assert LastIndexOf(ext, '.') == 0;
  }

  /** `/\.\w+$/` matches `s` at index `d`: a '.' followed by one or more word
      characters up to the end. */
  predicate ExtMatchAt(s: string, d: int) {
    0 <= d < |s| - 1 && s[d] == '.' && AllWordChars(s[d + 1..])
  }

  lemma ExtMatchAtChars(s: string, d: int)
    requires 0 <= d < |s| - 1
    ensures ExtMatchAt(s, d) <==> s[d] == '.' && forall k :: d < k < |s| ==> IsWordChar(s[k])
  {
    AllWordCharsAt(s[d + 1..]);
    assert forall k :: d < k < |s| ==> s[k] == s[d + 1..][k - d - 1];
  }

  /** `/\.\w+$/.test(s)` */
  predicate HasWordExt(s: string) {
    exists d | 0 <= d < |s| :: ExtMatchAt(s, d)
  }

  /** `s.replace(/\.\w+$/, '.mkv')`. A match starts at a '.' that is followed only
      by word characters, and '.' is not one, so it can only start at the last '.'. */
  function ReplaceExtWithMkv(s: string): (r: string) {
    var d := LastIndexOf(s, '.');
    if ExtMatchAt(s, d) then s[..d] + ".mkv" else s
  }

  /** The file name a converted file is written under. */
  function OutputName(p: string): (name: string) {
    Basename(ReplaceExtWithMkv(p))
  }

  /** `path.join(prefix, configured)` where `prefix` is the repository root for a
      relative `configured` and empty for an absolute one. */
  function Resolve(repoRoot: string, configured: string): (r: string)
    ensures IsAbsolute(configured) ==> r == configured
    ensures !IsAbsolute(configured) && repoRoot != "" ==> r == repoRoot + "/" + configured
    ensures IsAbsolute(repoRoot) || IsAbsolute(configured) ==> IsAbsolute(r)
  {
    Join(if IsAbsolute(configured) then "" else repoRoot, configured)
  }

  /** The regular expression matches at exactly one place, and the replacement
      rewrites the extension found there and nothing else. */
  lemma ReplaceExtMatchesRegex(s: string)
    ensures HasWordExt(s) ==> exists d :: ExtMatchAt(s, d) && ReplaceExtWithMkv(s) == s[..d] + ".mkv"
    ensures !HasWordExt(s) ==> ReplaceExtWithMkv(s) == s
  {
    if HasWordExt(s) {
      var d :| ExtMatchAt(s, d);
      assert ExtMatchAt(s, d);
      ExtMatchAtChars(s, d);
      var last := LastIndexOf(s, '.');
      LastIndexOfIsLast(s, '.');
      assert last == d;
    }
  }

  lemma EndsWithMkv(s: string)
    requires HasWordExt(s)
    ensures var r := ReplaceExtWithMkv(s); |r| >= 4 && r[|r| - 4..] == ".mkv"
  {
    ReplaceExtMatchesRegex(s);
  }

  /** A path with a word-character extension is named `<stem>.mkv`; any other
      path keeps its own last segment. */
  lemma OutputNameShape(p: string)
    ensures '/' !in OutputName(p)
    ensures HasWordExt(p) ==> var r := OutputName(p); |r| >= 4 && r[|r| - 4..] == ".mkv"
    ensures !HasWordExt(p) ==> OutputName(p) == Basename(p)
  {
    ReplaceExtMatchesRegex(p);
    BasenameShape(ReplaceExtWithMkv(p));
    if HasWordExt(p) {
      EndsWithMkv(p);
      MkvBasename(ReplaceExtWithMkv(p));
    }
  }

  /** The basename of a path ending in ".mkv" ends in ".mkv". */
  lemma MkvBasename(s: string)
    requires |s| >= 4 && s[|s| - 4..] == ".mkv"
    ensures var r := Basename(s); |r| >= 4 && r[|r| - 4..] == ".mkv"
  {
    assert s[|s| - 1] == 'v';
    var r := Basename(s);
    BasenameShape(s);
    assert forall k :: |s| - 4 <= k < |s| ==> s[k] == ".mkv"[k - (|s| - 4)];
    assert r[|r| - 4..] == s[|s| - 4..];
  }

  lemma {:induction false} LastSegmentWhole(r: string)
    requires '/' !in r
    ensures LastSegment(r) == r
    decreases |r|
  {
    if r != [] {
      LastSegmentWhole(r[..|r| - 1]);
      assert r == r[..|r| - 1] + [r[|r| - 1]];
    }
  }

  /** A name that is a single segment is its own basename. */
  lemma BasenameOfSegment(r: string)
    requires '/' !in r
    ensures Basename(r) == r
  {
    LastSegmentWhole(r);
  }

  /** A name already ending in ".mkv" is left alone by the replacement. */
  lemma MkvNameFixed(r: string)
    requires |r| >= 4 && r[|r| - 4..] == ".mkv"
    ensures ReplaceExtWithMkv(r) == r
  {
    assert ExtMatchAt(r, |r| - 4) by {
      forall k | |r| - 4 < k < |r| ensures IsWordChar(r[k]) {
        assert r[k] == ".mkv"[k - (|r| - 4)];
      }
      ExtMatchAtChars(r, |r| - 4);
    }
    ExtMatchIsLastDot(r, |r| - 4);
    assert r[..|r| - 4] + ".mkv" == r[..|r| - 4] + r[|r| - 4..];
  }

  /** A match at the end of a suffix is a match at the end of the whole string. */
  lemma WordExtOfSuffix(p: string, b: string)
    requires |b| <= |p| && b == p[|p| - |b|..]
    requires HasWordExt(b)
    ensures HasWordExt(p)
  {
    var d :| 0 <= d < |b| && ExtMatchAt(b, d);
    assert ExtMatchAt(b, d);
    ExtMatchAtChars(b, d);
    var e := d + |p| - |b|;
    assert p[e] == b[d];
    forall k | e < k < |p| ensures IsWordChar(p[k]) {
      assert p[k] == b[k - (|p| - |b|)];
    }
    ExtMatchAtChars(p, e);
  }

  /** Naming a converted file twice gives the same name as naming it once, for
      every path that does not end in a separator. */
  lemma OutputNameIdempotent(p: string)
    requires p == "" || p[|p| - 1] != '/'
    ensures OutputName(OutputName(p)) == OutputName(p)
  {
    var r := OutputName(p);
    OutputNameShape(p);
    if HasWordExt(p) {
      MkvNameFixed(r);
    } else {
      BasenameShape(p);
      if HasWordExt(r) {
        WordExtOfSuffix(p, r);
      }
      ReplaceExtMatchesRegex(r);
    }
    BasenameOfSegment(r);
  }

  /** The regular expression can match at one place at most. */
  lemma ExtMatchUnique(s: string, d1: int, d2: int)
    requires ExtMatchAt(s, d1) && ExtMatchAt(s, d2)
    ensures d1 == d2
  {
    ExtMatchAtChars(s, d1);
    ExtMatchAtChars(s, d2);
  }

  /** A match in a file name is a match in the name joined under a directory,
      and every match there lies in the file name. */
  lemma ExtMatchUnderDir(dir: string, e: string)
    requires '/' !in e
    ensures forall d :: ExtMatchAt(e, d) ==> ExtMatchAt(dir + "/" + e, |dir| + 1 + d)
    ensures forall d :: ExtMatchAt(dir + "/" + e, d) ==> d > |dir| && ExtMatchAt(e, d - |dir| - 1)
  {
    var s := dir + "/" + e;
    forall d | ExtMatchAt(e, d) ensures ExtMatchAt(s, |dir| + 1 + d) {
      ExtMatchAtChars(e, d);
      assert forall k :: |dir| + 1 <= k < |s| ==> s[k] == e[k - |dir| - 1];
      ExtMatchAtChars(s, |dir| + 1 + d);
    }
    forall d | ExtMatchAt(s, d) ensures d > |dir| && ExtMatchAt(e, d - |dir| - 1) {
      ExtMatchAtChars(s, d);
      assert s[|dir|] == '/';
      assert d > |dir|;
      var d' := d - |dir| - 1;
      forall k | d' < k < |e| ensures IsWordChar(e[k]) {
        assert e[k] == s[k + |dir| + 1];
      }
      assert e[d'] == s[d];
      ExtMatchAtChars(e, d');
    }
  }

  /** A match is at the last '.', and the replacement rewrites from there. */
  lemma ExtMatchIsLastDot(s: string, d: int)
    requires ExtMatchAt(s, d)
    ensures LastIndexOf(s, '.') == d
    ensures ReplaceExtWithMkv(s) == s[..d] + ".mkv"
  {
    ExtMatchAtChars(s, d);
    LastIndexOfIsLast(s, '.');
  }

  lemma ReplaceJoinedAt(dir: string, e: string, d: int)
    requires '/' !in e && ExtMatchAt(e, d)
    ensures ReplaceExtWithMkv(dir + "/" + e) == (dir + "/" + e)[..|dir| + 1 + d] + ".mkv"
  {
    ExtMatchUnderDir(dir, e);
    ExtMatchIsLastDot(dir + "/" + e, |dir| + 1 + d);
  }

  lemma JoinedPrefix(dir: string, e: string, d: int)
    requires 0 <= d <= |e|
    ensures (dir + "/" + e)[..|dir| + 1 + d] + ".mkv" == dir + "/" + (e[..d] + ".mkv")
  {
    assert (dir + "/" + e)[..|dir| + 1 + d] == dir + "/" + e[..d];
  }

  lemma MkvStemNoSlash(e: string, d: int)
    requires 0 <= d <= |e| && '/' !in e
    ensures '/' !in e[..d] + ".mkv"
  {
    var r := e[..d] + ".mkv";
    assert forall k :: 0 <= k < d ==> r[k] == e[k];
    assert forall k :: d <= k < |r| ==> r[k] == ".mkv"[k - d];
  }

  lemma ReplaceUnderDirMatch(dir: string, e: string)
    requires dir != "" && '/' !in e && HasWordExt(e)
    ensures ReplaceExtWithMkv(Join(dir, e)) == Join(dir, ReplaceExtWithMkv(e))
    ensures '/' !in ReplaceExtWithMkv(e)
  {
    var d :| 0 <= d < |e| && ExtMatchAt(e, d);
    ExtMatchIsLastDot(e, d);
    ReplaceJoinedAt(dir, e, d);
    JoinedPrefix(dir, e, d);
    MkvStemNoSlash(e, d);
  }

  lemma ReplaceUnderDirNoMatch(dir: string, e: string)
    requires '/' !in e && !HasWordExt(e)
    ensures ReplaceExtWithMkv(Join(dir, e)) == Join(dir, e)
    ensures ReplaceExtWithMkv(e) == e
  {
    ReplaceExtMatchesRegex(e);
    if dir != "" {
      var s := dir + "/" + e;
      ExtMatchUnderDir(dir, e);
      ReplaceExtMatchesRegex(s);
    }
  }

  /** A file joined under a directory is converted to the same name as the file
      on its own. */
  lemma OutputNameUnderDir(dir: string, e: string)
    requires e != "" && '/' !in e
    ensures OutputName(Join(dir, e)) == OutputName(e)
  {
    var r := ReplaceExtWithMkv(e);
    if HasWordExt(e) {
      if dir != "" {
        ReplaceUnderDirMatch(dir, e);
      }
      EndsWithMkv(e);
    } else {
      ReplaceUnderDirNoMatch(dir, e);
    }
    assert r != "" && '/' !in r;
    BasenameOfJoin(dir, r);
    BasenameOfSegment(r);
  }
}

=== FILE: process.dfy ===
/** The media post-processor of lib/process.js: it walks a directory, keeps the
    media files the walk's filter admits, probes each of them and reports, per
    file, the audio and video streams whose codec differs from the configured
    one. The directory walker and the prober are oracles: the walker is given
    as the sequence of entries it emits, the prober as a total function from a
    path to the probe's result or error. */
module MediaProcess {
  import opened Js
  import opened Paths

  /** The extensions of the files the walk keeps. */
  const MediaExts: seq<string> := [".mp4", ".mkv", ".mov", ".webm"]

  // --------------------------------------------------------------- the filter

  /** `sub` occurs in `s` at index `j`. */
  predicate OccursAt(s: string, sub: string, j: int) {
    0 <= j && j + |sub| <= |s| && s[j..j + |sub|] == sub
  }

  /** `s.indexOf(sub, i)`: the first index at or after `i` where `sub` occurs,
      or -1. */
  function IndexOfFrom(s: string, sub: string, i: nat): (r: int)
    ensures r == -1 || (i <= r && OccursAt(s, sub, r))
    ensures r >= 0 ==> forall j :: i <= j < r ==> !OccursAt(s, sub, j)
    ensures r == -1 ==> forall j :: i <= j ==> !OccursAt(s, sub, j)
    decreases |s| - i
  {
    if i + |sub| > |s| then -1
    else if s[i..i + |sub|] == sub then i
    else IndexOfFrom(s, sub, i + 1)
  }

  /** The walk descends into a directory when `item.indexOf('Season')` is
      truthy, that is, anything but 0 (-1 included). So a directory is pruned
      exactly when its path begins with "Season"; one that merely contains
      "Season" further on is kept. */
  predicate KeepDirectory(path: string): (keep: bool)
    ensures keep <==> !(|path| >= 6 && path[..6] == "Season")
  {
    assert |path| >= 6 && path[..6] == "Season" ==> OccursAt(path, "Season", 0);
    IndexOfFrom(path, "Season", 0) != 0
  }

  /** `path.extname(item)` is one of the media extensions. */
  predicate IsMediaFile(path: string) {
    Extname(path) in MediaExts
  }

  /** The walk's filter, for an item that is or is not a directory. */
  predicate Admit(path: string, isDirectory: bool) {
    if isDirectory then KeepDirectory(path) else IsMediaFile(path)
  }

  /** Every directory below an absolute root has an absolute path, so no
      directory is ever pruned there. */
  lemma AbsoluteDirectoryKept(path: string)
    requires IsAbsolute(path)
    ensures KeepDirectory(path)
  {
    assert path[0] != "Season"[0];
  }

  /** A file `stem.ext` is kept exactly when `.ext` is one of the media
      extensions, compared exactly; a dot file named after
      an extension is not kept. */
  lemma MediaFileByExtension(dir: string, stem: string, ext: string)
    requires '/' !in stem
    requires |ext| >= 2 && ext[0] == '.' && '/' !in ext && '.' !in ext[1..]
    ensures stem != "" ==> (IsMediaFile(Join(dir, stem + ext)) <==> ext in MediaExts)
    ensures stem == "" ==> !IsMediaFile(Join(dir, stem + ext))
  {
    if stem == "" {
      assert stem + ext == ext;
      ExtnameOfDotFile(dir, ext);
    } else {
      ExtnameOfJoin(dir, stem, ext);
    }
  }

  // ------------------------------------------------------------- the collector

  /** What the walker emits: an item (its path and whether it is a directory)
      or an error. */
  datatype Entry = Item(path: string, isDirectory: bool) | Failure(error: Value)

  /** The paths of the items that are not directories, in emission order. */
  function FilePaths(entries: seq<Entry>): (r: seq<string>)
    ensures |r| <= |entries|
  {
    if entries == [] then []
    else
      var last := entries[|entries| - 1];
      FilePaths(entries[..|entries| - 1]) + (if last.Item? && !last.isDirectory then [last.path] else [])
  }

  predicate NoFailure(entries: seq<Entry>) {
    forall k :: 0 <= k < |entries| ==> entries[k].Item?
  }

  /** `findMediaFiles`: the files of the walk in emission order, or the first
      error the walker emits. */
  method FindMediaFiles(entries: seq<Entry>) returns (r: Result<seq<string>>)
    ensures r.Ok? <==> NoFailure(entries)
    ensures r.Ok? ==> r.value == FilePaths(entries)
    ensures r.Err? ==> exists k :: 0 <= k < |entries| && entries[k] == Failure(r.error) && NoFailure(entries[..k])
  {
    var files := [];
    var k := 0;
    while k < |entries|
      invariant 0 <= k <= |entries|
      invariant NoFailure(entries[..k])
      invariant files == FilePaths(entries[..k])
    {
      var entry := entries[k];
      if entry.Failure? {
        return Err(entry.error);
      }
      assert entries[..k + 1][..k] == entries[..k];
      if !entry.isDirectory {
        files := files + [entry.path];
      }
      k := k + 1;
    }
    assert entries[..k] == entries;
    r := Ok(files);
  }

  /** Every path `FilePaths` reports is a file item of the walk. */
  lemma {:induction false} FilePathsOrigin(entries: seq<Entry>, p: string)
    requires p in FilePaths(entries)
    ensures exists k :: 0 <= k < |entries| && entries[k] == Item(p, false)
  {
    var n := |entries|;
    var front := entries[..n - 1];
    if p in FilePaths(front) {
      FilePathsOrigin(front, p);
      var k :| 0 <= k < |front| && front[k] == Item(p, false);
      assert entries[k] == front[k];
    } else {
      assert entries[n - 1] == Item(p, false);
    }
  }

  /** The walker admits every item but its root through the filter. */
  predicate FilteredWalk(entries: seq<Entry>) {
    forall k :: 0 < k < |entries| && entries[k].Item? ==> Admit(entries[k].path, entries[k].isDirectory)
  }

  /** Walking a directory, every file found has a media extension. */
  lemma FoundFilesAreMedia(entries: seq<Entry>)
    requires FilteredWalk(entries)
    requires |entries| > 0 && entries[0].Item? ==> entries[0].isDirectory
    ensures forall p :: p in FilePaths(entries) ==> IsMediaFile(p)
  {
    forall p | p in FilePaths(entries) ensures IsMediaFile(p) {
      FilePathsOrigin(entries, p);
      var k :| 0 <= k < |entries| && entries[k] == Item(p, false);
      assert Admit(entries[k].path, entries[k].isDirectory);
    }
  }

  // ------------------------------------------------------------ stream choice

  /** `_.filter(stats.streams, ...)`: a stream is kept when its `codec_type` is
      `kind` and its `codec_name` is not the configured codec. */
  predicate Wanted(stream: Value, kind: string, codec: Value): (wanted: bool)
    ensures wanted <==> && stream.Obj? && "codec_type" in stream.fields && stream.fields["codec_type"] == Str(kind)
                        && Get(stream, "codec_name") != codec
  {
    Get(stream, "codec_type") == Str(kind) && Get(stream, "codec_name") != codec
  }

  function SelectStreams(streams: seq<Value>, kind: string, codec: Value): (r: seq<Value>)
    ensures |r| <= |streams|
  {
    if streams == [] then []
    else (if Wanted(streams[0], kind, codec) then [streams[0]] else []) + SelectStreams(streams[1..], kind, codec)
  }

  /** A stream is selected exactly when it is one of the probe's streams and
      is wanted. */
  lemma {:induction false} SelectStreamsMembers(streams: seq<Value>, kind: string, codec: Value)
    ensures forall x :: x in SelectStreams(streams, kind, codec) <==> x in streams && Wanted(x, kind, codec)
  {
    if streams != [] {
      SelectStreamsMembers(streams[1..], kind, codec);
      assert streams == [streams[0]] + streams[1..];
    }
  }

  /** Selection keeps the original order: it distributes over concatenation. */
  lemma {:induction false} SelectStreamsConcat(a: seq<Value>, b: seq<Value>, kind: string, codec: Value)
    ensures SelectStreams(a + b, kind, codec) == SelectStreams(a, kind, codec) + SelectStreams(b, kind, codec)
  {
    if a == [] {
      assert a + b == b;
    } else {
      var head := if Wanted(a[0], kind, codec) then [a[0]] else [];
      assert (a + b)[0] == a[0];
      assert (a + b)[1..] == a[1..] + b;
      SelectStreamsConcat(a[1..], b, kind, codec);
      assert SelectStreams(a + b, kind, codec) == head + SelectStreams(a[1..] + b, kind, codec);
      assert SelectStreams(a, kind, codec) == head + SelectStreams(a[1..], kind, codec);
    }
  }

  /** No stream is selected both as audio and as video. */
  lemma AudioVideoDisjoint(streams: seq<Value>, audioCodec: Value, videoCodec: Value)
    ensures forall x :: x in SelectStreams(streams, "audio", audioCodec) ==>
                          x !in SelectStreams(streams, "video", videoCodec)
  {
    SelectStreamsMembers(streams, "audio", audioCodec);
    SelectStreamsMembers(streams, "video", videoCodec);
  }

  /** `stats.streams` when it is an array. */
  function StreamsOf(stats: Value): (streams: seq<Value>) {
    var s := Get(stats, "streams");
    if s.Arr? then s.items else []
  }

  /** The entry reported for one probed file: `{path, audio, video}`. */
  function MediaInfo(path: string, stats: Value, audioCodec: Value, videoCodec: Value): (info: Value) {
    Obj(map["path" := Str(path),
            "audio" := Arr(SelectStreams(StreamsOf(stats), "audio", audioCodec)),
            "video" := Arr(SelectStreams(StreamsOf(stats), "video", videoCodec))])
  }

  /** `async.mapLimit(listOfFiles, 5, ...)`: one entry per file in the order of
      the list, or a probe's error. */
  method ProbeFiles(files: seq<string>, probe: string -> Result<Value>, audioCodec: Value, videoCodec: Value)
    returns (r: Result<seq<Value>>)
    ensures r.Ok? <==> forall k :: 0 <= k < |files| ==> probe(files[k]).Ok?
    ensures r.Ok? ==> |r.value| == |files|
    ensures r.Ok? ==>
      forall k :: 0 <= k < |files| ==> r.value[k] == MediaInfo(files[k], probe(files[k]).value, audioCodec, videoCodec)
    ensures r.Err? ==> exists k :: 0 <= k < |files| && probe(files[k]) == Err(r.error)
  {
    var results := [];
    var k := 0;
    while k < |files|
      invariant 0 <= k <= |files|
      invariant |results| == k
      invariant forall j :: 0 <= j < k ==> probe(files[j]).Ok?
      invariant forall j :: 0 <= j < k ==> results[j] == MediaInfo(files[j], probe(files[j]).value, audioCodec, videoCodec)
    {
      var stats := probe(files[k]);
      if stats.Err? {
        return Err(stats.error);
      }
      results := results + [MediaInfo(files[k], stats.value, audioCodec, videoCodec)];
      k := k + 1;
    }
    r := Ok(results);
  }

  /** The report the step resolves with when every file was probed. */
  function MediaReport(files: seq<string>, probe: string -> Result<Value>, audioCodec: Value, videoCodec: Value): (report: Value)
    requires forall k :: 0 <= k < |files| ==> probe(files[k]).Ok?
  {
    Obj(map["media" := Arr(seq(|files|, k requires 0 <= k < |files| =>
                                 MediaInfo(files[k], probe(files[k]).value, audioCodec, videoCodec)))])
  }

  /** The step for one job: walk `job.data.path`, probe every media file found
      and resolve with `{media: [...]}`. Reading `path` of a missing `data`, or
      walking something that is not a path string, throws a TypeError. */
  method ProcessDirectory(data: Value, walk: string -> seq<Entry>, probe: string -> Result<Value>,
                          audioCodec: Value, videoCodec: Value)
    returns (r: Result<Value>)
    ensures data.Undefined? || data.Null? || !Get(data, "path").Str? ==> r == Err(TypeError)
    ensures Get(data, "path").Str? ==>
      var files := FilePaths(walk(Get(data, "path").s));
      && (r.Ok? <==> NoFailure(walk(Get(data, "path").s)) && forall k :: 0 <= k < |files| ==> probe(files[k]).Ok?)
      && (r.Ok? ==> r.value == MediaReport(files, probe, audioCodec, videoCodec))
    ensures Get(data, "path").Str? && r.Err? ==>
      var entries := walk(Get(data, "path").s);
      || (exists k :: 0 <= k < |entries| && entries[k] == Failure(r.error) && NoFailure(entries[..k]))
      || (NoFailure(entries) && exists k :: 0 <= k < |FilePaths(entries)| && probe(FilePaths(entries)[k]) == Err(r.error))
  {
    if data.Undefined? || data.Null? || !Get(data, "path").Str? {
      return Err(TypeError);
    }
    var path := Get(data, "path").s;
    var found := FindMediaFiles(walk(path));
    if found.Err? {
      return Err(found.error);
    }
    var infos := ProbeFiles(found.value, probe, audioCodec, videoCodec);
    if infos.Err? {
      return Err(infos.error);
    }
    r := Ok(Obj(map["media" := Arr(infos.value)]));
    assert infos.value == seq(|found.value|, k requires 0 <= k < |found.value| =>
                                MediaInfo(found.value[k], probe(found.value[k]).value, audioCodec, videoCodec));
  }
}
